=== FILE: README.md ===
# Pentago rules engine — a Dafny model

This project models the rules engine of a two-player Pentago game. The game is played on a
6x6 board made of four 3x3 sub-boards (quadrants). A move places a white or black marble on an
empty cell and then turns one quadrant a quarter turn, clockwise (`"C"`) or anticlockwise
(`"A"`). A player wins with five of their marbles in a line.

The Python classes map onto modules as follows:

- `SubBoard`: reading a quadrant and turning it. Modelled in `sub_board.dfy`.
- `GameBoard`: placing a marble, turning a quadrant by number, the full-board test, and the
  five-in-a-row scan of `check_end_conditions`. Modelled in `game_board.dfy` and
  `five_in_a_row.dfy`.
- `Pentago`: position decoding, move validation, switching players and `make_move`.
  Modelled in `pentago.dfy`.

Shared vocabulary lives in `grid.dfy`: cells, marbles, boards and positions.
`exceptions.dfy` turns Python's exceptions into explicit `Result` values.

The model is purely functional. Every mutation of `self` becomes a new `Game` or `Board`
value. The Python in-place updates of the shared 2-D list become functions from board to
board.

Where the code and its docstrings disagree, the model follows the code:

- `check_end_conditions` returns a boolean, not a game-state string. `make_move` compares
  that boolean with `"UNFINISHED"`, so the comparison is always unequal. As written, every
  accepted move therefore ends the turn right after placement. It stores the boolean as the
  game state (`GameState.Flag`) and never rotates. Lines 112-156 are unreachable.
- The down-left diagonal scan reads negative column indices, which Python wraps to the end
  of the row (`FiveInARow.PyIndex`).
- `make_move` records the caller's colour as the current player before validation. So even
  a rejected move changes `current`.
- A column digit 6-9 passes `convert_position`. It raises `IndexError` in `is_valid_move`,
  but only after the game-state check and the turn check.

`intended_move.dfy` holds the corrected `make_move`. It includes the rotation and the
post-rotation win/draw table that the code and its comments lay out at lines 106-152 of
`Pentago.py`, and it uses a scan that stays on the board. The two defects are logged under "## Findings".

## Model

| member | source | states |
|---|---|---|
| SubBoard.GetSubBoardCell | portfolio-Neo-Holgado/Pentago.py:379-390 | window cell (i, j) read from a quadrant is the board cell at offset (i, j) from that quadrant's anchor |
| SubBoard.PutSubBoardCell | portfolio-Neo-Holgado/Pentago.py:415-418 | the write-back puts window cell (i, j) on the board cell at offset (i, j) from the anchor |
| SubBoard.GetAfterPut | portfolio-Neo-Holgado/Pentago.py:379-390 | reading a quadrant right after writing a 3x3 window into it gives back exactly that window |
| SubBoard.PutWhatWasRead | portfolio-Neo-Holgado/Pentago.py:415-418 | writing back the window just read from a quadrant leaves the whole board unchanged |
| SubBoard.PutIsLocal | portfolio-Neo-Holgado/Pentago.py:415-418 | writing a window into a quadrant changes no cell outside that quadrant |
| SubBoard.RotateWindow | portfolio-Neo-Holgado/Pentago.py:400-413 | a clockwise turn moves cell (2-c, r) to (r, c), an anticlockwise turn moves (c, 2-r) to (r, c), and the centre stays put |
| SubBoard.RotateWindowUndo | portfolio-Neo-Holgado/Pentago.py:400-413 | a turn followed by the opposite turn restores the window |
| SubBoard.RotateWindowFourTimes | portfolio-Neo-Holgado/Pentago.py:400-413 | four quarter turns in the same direction restore the window |
| SubBoard.RotateWindowPermutes | portfolio-Neo-Holgado/Pentago.py:400-413 | a turn keeps the multiset of the nine cells: no marble is created or lost |
| SubBoard.TurnFrom | portfolio-Neo-Holgado/Pentago.py:398-418 | the board cell that moves to (r, c) is on the board, and it lies in the turned quadrant exactly when (r, c) does |
| SubBoard.Turn | portfolio-Neo-Holgado/Pentago.py:392-418 | after turning a quadrant, every board cell holds the marble that was at its pre-image under the turn |
| SubBoard.TurnIsLocal | portfolio-Neo-Holgado/Pentago.py:415-418 | turning a quadrant leaves every cell of the other three quadrants unchanged |
| SubBoard.TurnedWindow | portfolio-Neo-Holgado/Pentago.py:397-418 | the quadrant read after a turn equals the 3x3 rotation of the quadrant read before it |
| SubBoard.TurnUndo | portfolio-Neo-Holgado/Pentago.py:392-418 | turning a quadrant one way and then the other way restores the whole board |
| SubBoard.TurnFourTimes | portfolio-Neo-Holgado/Pentago.py:392-418 | four quarter turns of the same quadrant in the same direction restore the whole board |
| SubBoard.ParseDirection | portfolio-Neo-Holgado/Pentago.py:400-413 | only the exact tokens "C" and "A" name a direction, clockwise and anticlockwise respectively |
| SubBoard.Rotate | portfolio-Neo-Holgado/Pentago.py:392-418 | "C" and "A" turn the quadrant; any other token fails with UnboundLocalError, because `rotated_board` is never bound |
| GameBoard.Place | portfolio-Neo-Holgado/Pentago.py:245-252 | the named cell holds the marble afterwards and every other cell is unchanged |
| GameBoard.QuadrantOf | portfolio-Neo-Holgado/Pentago.py:224-229 | sub-board numbers 1-4 are the quadrants anchored at (0,0), (0,3), (3,0) and (3,3); any other key is missing |
| GameBoard.UpdateFromSubBoards | portfolio-Neo-Holgado/Pentago.py:266-283 | copying the four sub-board views back into the board is the identity, because each view reads the same board |
| GameBoard.RotateSubBoard | portfolio-Neo-Holgado/Pentago.py:254-264 | a number outside 1-4 raises KeyError before the token is examined; otherwise a bad token raises UnboundLocalError and "C"/"A" turn that quadrant |
| GameBoard.RowsFull | portfolio-Neo-Holgado/Pentago.py:290-294 | scanning rows i..5 reports full exactly when none of those rows holds an empty cell |
| GameBoard.IsFull | portfolio-Neo-Holgado/Pentago.py:285-294 | the board is full exactly when no cell is empty |
| FiveInARow.PyIndex | portfolio-Neo-Holgado/Pentago.py:349-353 | a Python index in -6..5 selects a cell in 0..5 of a row |
| FiveInARow.PyIndexIsModulo | portfolio-Neo-Holgado/Pentago.py:349-353 | the column reached through a negative index is the index modulo 6 |
| FiveInARow.CheckFiveInARow | portfolio-Neo-Holgado/Pentago.py:302-357 | the scan answers true exactly when some scanned row, column or diagonal start holds five marbles of the colour |
| FiveInARow.ScanRows | portfolio-Neo-Holgado/Pentago.py:309-319 | the row scan finds a run exactly when a row starting at column 0 or 1 holds five of the colour |
| FiveInARow.ScanColumns | portfolio-Neo-Holgado/Pentago.py:321-331 | the column scan finds a run exactly when a column starting at row 0 or 1 holds five of the colour |
| FiveInARow.ScanDownRight | portfolio-Neo-Holgado/Pentago.py:333-343 | the down-right scan finds a run exactly when a diagonal starting in rows 0-1 and columns 0-1 holds five of the colour |
| FiveInARow.ScanDownLeft | portfolio-Neo-Holgado/Pentago.py:345-355 | the down-left scan finds a run exactly when a start in rows 0-1 and columns 2-5, with wrapped indices, holds five of the colour |
| FiveInARow.LoneMarbleHasNoFive | portfolio-Neo-Holgado/Pentago.py:302-357 | a board holding the colour at one cell at most has no scanned run of five of it |
| FiveInARow.PlacingKeepsFive | portfolio-Neo-Holgado/Pentago.py:245-252 | placing a marble on an empty cell never destroys an existing five-in-a-row |
| FiveInARow.PlacingKeepsFiveOnGrid | portfolio-Neo-Holgado/Pentago.py:245-252 | the same monotonicity holds for the corrected, on-board scan |
| FiveInARow.FilledIsLine | portfolio-Neo-Holgado/Pentago.py:302-357 | an on-board scan start is filled exactly when its five cells form a geometric straight line of the colour |
| FiveInARow.OnGridScanMatchesLines | portfolio-Neo-Holgado/Pentago.py:302-357 | the corrected scan reports five exactly when the board holds five marbles of the colour in a straight line |
| FiveInARow.ScanFindsEveryLine | portfolio-Neo-Holgado/Pentago.py:302-357 | every genuine straight line of five is also found by the scan as written |
| FiveInARow.CheckEndConditions | portfolio-Neo-Holgado/Pentago.py:296-364 | the end check returns a bool, never one of the state strings its docstring lists; it is true whenever the board holds a straight line of five of the colour, and whenever the corrected scan finds one |
| FiveInARow.WrappedRunCounterexample | portfolio-Neo-Holgado/Pentago.py:345-355 | on a concrete board, the scan as written reports five for white though no straight line of five exists |
| Pentago.NewGame | portfolio-Neo-Holgado/Pentago.py:11-16 | a new game is unfinished, has no current player and no opponent, and has an empty board |
| Pentago.ConvertPosition | portfolio-Neo-Holgado/Pentago.py:67-79 | a position decodes when it has a letter a-f in either case and then a digit. Errors are IndexError for an empty string, KeyError for a bad letter, IndexError for a single letter and ValueError for a bad digit |
| Pentago.ConvertPositionRoundTrip | portfolio-Neo-Holgado/Pentago.py:74-79 | the name of a position, in lower or upper case and with any suffix, decodes back to that position |
| Pentago.ConvertPositionOnlyNames | portfolio-Neo-Holgado/Pentago.py:74-79 | every position that decodes is named by its first two characters |
| Pentago.UpperChar | portfolio-Neo-Holgado/Pentago.py:94 | the k-th small ASCII letter becomes the k-th capital letter; every other character is kept, non-ASCII letters included (see "## Left out") |
| Pentago.UpperIdempotent | portfolio-Neo-Holgado/Pentago.py:94 | upper-casing an upper-cased string changes nothing |
| Pentago.ColorOf | portfolio-Neo-Holgado/Pentago.py:94 | the colour is white exactly when the argument is "white" in any mix of case; every other string is black |
| Pentago.IsValidMove | portfolio-Neo-Holgado/Pentago.py:158-182 | a move is accepted exactly when the game is unfinished, the player is not the recorded opponent, and the cell is on the board and empty. Refusals come in the source's order: finished, wrong turn, IndexError for a column of 6 or more, occupied cell |
| Pentago.SwitchPlayer | portfolio-Neo-Holgado/Pentago.py:184-194 | the board and state are kept; with no current player nothing changes; otherwise the current player becomes the other colour and the opponent becomes the old current player |
| Pentago.SwitchPlayerTwice | portfolio-Neo-Holgado/Pentago.py:184-194 | switching twice restores the current player, and restores the whole game when the opponent was already the other colour |
| Pentago.Decide | portfolio-Neo-Holgado/Pentago.py:133-150 | both players in a line is a draw; only the mover is a win for the mover; only the opponent is a win for the opponent; otherwise a full board is a draw, else play continues |
| Pentago.DecideIgnoresWhoMoved | portfolio-Neo-Holgado/Pentago.py:133-145 | the decision table is symmetric in the two players: swapping who moved does not change the outcome |
| Pentago.FinishTurn | portfolio-Neo-Holgado/Pentago.py:119-156 | after the rotation the game state follows the table above; a continuing game passes the turn; a finishing game records the mover as current and the other colour as opponent |
| Pentago.PlaceMarble | portfolio-Neo-Holgado/Pentago.py:91-104 | decoding errors are raised before anything changes; the current player is set from the colour before validation; a marble is placed exactly when validation accepts it, and the board differs only at that cell; a refused call carries the verdict `is_valid_move` gave for the colour just made current |
| Pentago.MakeMove | portfolio-Neo-Holgado/Pentago.py:81-110 | a move is accepted exactly when the marble is placed; an accepted move ends the turn at once with the boolean result of the win check as state; a refused or raising call returns exactly what placement returned, the validation message or the exception |
| Pentago.AcceptedMoveEndsGame | portfolio-Neo-Holgado/Pentago.py:106-110 | after any accepted move the state is no longer "UNFINISHED", so no later call is accepted: every later well-formed move is refused as "game is finished", and an undecodable position still raises |
| Pentago.MessagesIdentifyRefusals | portfolio-Neo-Holgado/Pentago.py:165-179 | the three refusal messages are non-empty and pairwise different, so the returned string identifies the refusal |
| Pentago.FinishedGameRefusesMoves | portfolio-Neo-Holgado/Pentago.py:165-167 | in a finished game every well-formed move is refused as finished and leaves board and state alone |
| Pentago.TurnCheckNeverRefuses | portfolio-Neo-Holgado/Pentago.py:121-123 | the opponent is only ever set after a rotation, so as written the "not this player's turn" refusal never occurs |
| Pentago.FinishedGameStaysFinished | portfolio-Neo-Holgado/Pentago.py:165-167 | from a finished game, any sequence of calls accepts nothing and changes neither board nor state |
| Pentago.AtMostOneMoveAccepted | portfolio-Neo-Holgado/Pentago.py:106-110 | over any sequence of calls starting from any game, at most one move is accepted |
| Pentago.FirstMoveEndsGame | portfolio-Neo-Holgado/Pentago.py:106-110 | concretely, after white plays "a0" in a new game, black's "a1" is refused as "game is finished" |
| IntendedMove.MakeMoveIntended | portfolio-Neo-Holgado/Pentago.py:81-156 | decoding and validation failures pass through unchanged; only an accepted or raised move changes the board or the state |
| IntendedMove.ContinuingMovePassesTurn | portfolio-Neo-Holgado/Pentago.py:152-154 | when an accepted move leaves the game unfinished, the other colour is current and the mover is the recorded opponent |
| IntendedMove.IntendedFinishedRefusesMoves | portfolio-Neo-Holgado/Pentago.py:165-167 | a finished game refuses every well-formed move and keeps board and state |
| IntendedMove.PlacementWinSkipsRotation | portfolio-Neo-Holgado/Pentago.py:106-110 | five in a line right after placement wins for the mover with no rotation |
| IntendedMove.NoPlacementWinRotates | portfolio-Neo-Holgado/Pentago.py:112-119 | without an immediate win, a valid quadrant number and token turn that quadrant, and the result is judged on the turned board |
| IntendedMove.RotatedMoveFinishes | portfolio-Neo-Holgado/Pentago.py:112-156 | without an immediate win and with a valid quadrant number and token, the move is accepted and the game is exactly the post-rotation decision applied to the placed board with that quadrant turned |
| IntendedMove.BadRotationRaisesAfterPlacing | portfolio-Neo-Holgado/Pentago.py:254-261 | a bad quadrant number or token raises after the marble is already on the board |
| IntendedMove.DoubleFiveAfterRotationIsDraw | portfolio-Neo-Holgado/Pentago.py:133-137 | when the turned board holds a line of five for both colours, the game is a draw |
| IntendedMove.PlacedMoveIsAccepted | portfolio-Neo-Holgado/Pentago.py:104-156 | once the marble is placed, a move naming sub-board 1-4 and "C" or "A" is accepted on every path: placement win, win or draw after the turn, or play continuing |
| IntendedMove.QuietMoveContinues | portfolio-Neo-Holgado/Pentago.py:112-156 | if no line forms before or after the turn and the turned board is not full, the move is accepted, the board is the turned one, the game stays unfinished and the turn passes to the other colour |
| IntendedMove.IntendedFirstMoveContinues | portfolio-Neo-Holgado/Pentago.py:81-156 | on a new game, white's a0 with a clockwise turn of sub-board 1 is accepted, the game stays unfinished with black current and white as opponent, and black's a1 is then accepted |
| IntendedMove.AcceptedMovesAlternate | portfolio-Neo-Holgado/Pentago.py:169-171 | after an accepted move that keeps the game going, the very next call, if accepted, is by the other colour |
| IntendedMove.RefusedCallKeepsOpponent | portfolio-Neo-Holgado/Pentago.py:91-123 | a call that is refused or raises, before or after placing, keeps the recorded opponent and the game state; the opponent is only written at line 123, after a successful rotation |
| IntendedMove.AcceptedMoverIsNotOpponent | portfolio-Neo-Holgado/Pentago.py:169-171 | no call by the colour recorded as the opponent is accepted |
| IntendedMove.FirstAcceptedIsNotOpponent | portfolio-Neo-Holgado/Pentago.py:91-171 | in any sequence of calls, the first accepted one is not by the colour recorded as the opponent at the start, however many refused or raising calls (out-of-turn attempts included) come before it |
| IntendedMove.NextAcceptedMoveAlternates | portfolio-Neo-Holgado/Pentago.py:91-171 | after an accepted move that keeps the game going, the next accepted move in any later sequence of calls is by the other colour |

## Left out

- `GameLog` (`log_move`, `log_game_state`, `review_log`) is not modelled. It only records
  moves and never influences the rules. The corrected move skips the `log_move` call.
- `print_board` and `main` are not modelled. They are console I/O.
- The getters and setters (`get_current_player`, `set_opponent`, …) are field reads and
  writes of the `Game` datatype. `is_board_full` is `GameBoard.IsFull` applied to the board.
- `GameBoard.get_sub_board` (lines 238-243) is `SubBoard.GetSubBoard` reached through the
  dictionary of quadrants.
- The `SubBoard` objects keep a reference to the shared board list. The model recomputes
  each quadrant view from the current board, which is what the aliasing achieves.
- Pentago.ConvertPosition: `str.lower` and `int` are modelled on ASCII only. Python also
  lower-cases other letters and accepts non-ASCII decimal digits; none of those letters is
  a key of the row table.
- Pentago.ColorOf: `str.upper` is modelled on ASCII only. Non-ASCII characters that
  upper-case to ASCII letters (for example the dotless ı becoming I) are not modelled.
- GameBoard.RotateSubBoard: only integer sub-board ids are modelled. Python also accepts
  keys equal to 1-4 such as `1.0` or `True`, and raises `TypeError` for unhashable keys.
- IntendedMove.MakeMoveIntended: the `sub_board` argument is an integer for the same
  reason; its use in `log_move` (line 153) is not modelled. `make_move` as written returns
  before it ever reads `sub_board`, so `Pentago.MakeMove` ignores it.
- Pentago.UpperChar: keeps every character outside a-z. Python's `str.upper` also changes
  non-ASCII letters (`é` to `É`, `ω` to `Ω`); only ASCII is modelled.
- Pentago.Upper: models `str.upper` on ASCII only. Python maps some characters to several
  (`ß` becomes `SS`), so there the length is not always kept. Its only use is the comparison
  with "WHITE" under Pentago.ColorOf below.
- Pentago.IsValidMove: the row is required to be 0-5 and the column non-negative. Those are
  the only positions `convert_position` can produce.
- Pentago.FinishTurn: requires that the mover is the current player. `make_move` always sets
  the current player to the mover just before.
- Pentago.TurnCheckNeverRefuses: stated for games whose opponent is unset, which covers
  every game reachable from the constructor under the code as written.
- Python exceptions are modelled as `Result` values, including the mutations made before the
  exception is raised. Tracebacks and exception messages are not modelled.

## Findings

| source | as written | input that shows it | evidently intended | confidence | as-written member | corrected member |
|---|---|---|---|---|---|---|
| portfolio-Neo-Holgado/Pentago.py:107-110 | `check_end_conditions` returns a boolean, and `game_state != "UNFINISHED"` is always true for a boolean, so every accepted move stores `True`/`False` as the state and returns before rotating | `make_move("white", "a0", 1, "C")` on a new game, then `make_move("black", "a1", 1, "C")` returns "game is finished" | stop before the rotation only when the mover already has five in a line; otherwise rotate and apply the win/draw table of lines 133-156 | high (not executed) | Pentago.FirstMoveEndsGame | IntendedMove.MakeMoveIntended |
| portfolio-Neo-Holgado/Pentago.py:345-355 | the down-left scan starts at columns 2 and 3 too, so `column - 4` and `column - 3` go negative and Python wraps them to the other side of the row | white at (0,2), (1,1), (2,0), (3,5), (4,4) is reported as five in a row | start the down-left scan only at columns 4 and 5, so every run is a straight line on the board | high (not executed) | FiveInARow.WrappedRunCounterexample | FiveInARow.OnGridScanMatchesLines |

For the first row, `IntendedMove.IntendedFirstMoveContinues` runs the same two calls
through the corrected move: the game stays unfinished and black's reply is accepted.
`IntendedMove.ContinuingMovePassesTurn` and `IntendedMove.NextAcceptedMoveAlternates` state the
turn order in general. For the second row, `FiveInARow.ScanFindsEveryLine` shows that the
scan as written misses no genuine line, so the wrap-around only adds false wins.

=== FILE: exceptions.dfy ===
/** Optional values, and results that carry either a value or the Python
    exception the source would raise instead. */
module Exceptions {

  datatype Option<+T> = None | Some(value: T)

  /** The built-in exceptions the rules engine can raise on bad input. */
  datatype PyError = IndexError | KeyError | ValueError | UnboundLocalError

  /** A computation that either returns a value or raises. */
  datatype Result<+T> = Ok(value: T) | Fail(error: PyError)
}

=== FILE: five_in_a_row.dfy ===
/** check_five_in_a_row: the scan of length-5 runs behind check_end_conditions.
    The scan visits 36 start cells: 12 horizontal (start columns 0-1),
    12 vertical (start rows 0-1), 4 down-right and 8 down-left (start rows
    0-1, start columns 2-5). For down-left starts at columns 2 and 3 the
    column index goes negative, and Python's list indexing wraps it round to
    the other edge of the board. */
module FiveInARow {
  import opened Grid
  import opened GameBoard

  datatype Axis = Horizontal | Vertical | DownRight | DownLeft

  /** A run of five cells, named by its direction and start cell. */
  datatype Run = Run(axis: Axis, row: int, col: int)

  /** Python list indexing on a row of six: a negative index counts from the end. */
  function PyIndex(i: int): (j: int)
    requires -6 <= i < 6
    ensures 0 <= j < 6
  {
    if i < 0 then i + 6 else i
  }

  /** The wrapped index is the column taken modulo the row length. */
  lemma PyIndexIsModulo(i: int)
    requires -6 <= i < 6
    ensures PyIndex(i) == (i + 6) % 6
  {
  }

  /** The start cells the scan visits, per direction. */
  predicate Scanned(s: Run)
  {
    match s.axis
    case Horizontal => 0 <= s.row < 6 && 0 <= s.col < 2
    case Vertical => 0 <= s.row < 2 && 0 <= s.col < 6
    case DownRight => 0 <= s.row < 2 && 0 <= s.col < 2
    case DownLeft => 0 <= s.row < 2 && 2 <= s.col < 6
  }

  /** The k-th cell of a scanned run, as the source indexes the board. */
  function RunCell(s: Run, k: int): (p: Position)
    requires Scanned(s) && 0 <= k < 5
    ensures 0 <= p.row < 6 && 0 <= p.col < 6
  {
    match s.axis
    case Horizontal => Position(s.row, s.col + k)
    case Vertical => Position(s.row + k, s.col)
    case DownRight => Position(s.row + k, s.col + k)
    case DownLeft => Position(s.row + k, PyIndex(s.col - k))
  }

  function CellAt(b: Board, s: Run, k: int): Cell
    requires Scanned(s) && 0 <= k < 5
  {
    b[RunCell(s, k).row][RunCell(s, k).col]
  }

  /** The source's five comparisons for one start cell. */
  predicate Filled(b: Board, col: Cell, s: Run)
    requires Scanned(s)
  {
    && CellAt(b, s, 0) == col
    && CellAt(b, s, 1) == col
    && CellAt(b, s, 2) == col
    && CellAt(b, s, 3) == col
    && CellAt(b, s, 4) == col
  }

  /** Whether some scanned run along one axis is entirely col. */
  predicate FiveAlong(b: Board, col: Cell, a: Axis)
  {
    match a
    case Horizontal => exists r, c | 0 <= r < 6 && 0 <= c < 2 :: Filled(b, col, Run(Horizontal, r, c))
    case Vertical => exists r, c | 0 <= r < 2 && 0 <= c < 6 :: Filled(b, col, Run(Vertical, r, c))
    case DownRight => exists r, c | 0 <= r < 2 && 0 <= c < 2 :: Filled(b, col, Run(DownRight, r, c))
    case DownLeft => exists r, c | 0 <= r < 2 && 2 <= c < 6 :: Filled(b, col, Run(DownLeft, r, c))
  }

  /** The verdict of check_five_in_a_row, wrap-around included. */
  predicate HasFive(b: Board, col: Cell)
  {
    FiveAlong(b, col, Horizontal) || FiveAlong(b, col, Vertical)
    || FiveAlong(b, col, DownRight) || FiveAlong(b, col, DownLeft)
  }

  /** The scan as the source writes it: four nested loop pairs in turn, each
      returning as soon as one start cell has five equal cells. */
  method CheckFiveInARow(b: Board, col: Cell) returns (found: bool)
    ensures found <==> HasFive(b, col)
  {
    found := ScanRows(b, col);
    if found { return; }
    found := ScanColumns(b, col);
    if found { return; }
    found := ScanDownRight(b, col);
    if found { return; }
    found := ScanDownLeft(b, col);
  }

  /** The row loops. */
  method ScanRows(b: Board, col: Cell) returns (found: bool)
    ensures found <==> FiveAlong(b, col, Horizontal)
  {
    for row := 0 to 6
      invariant forall r, c :: 0 <= r < row && 0 <= c < 2 ==> !Filled(b, col, Run(Horizontal, r, c))
    {
      for column := 0 to 2
        invariant forall c :: 0 <= c < column ==> !Filled(b, col, Run(Horizontal, row, c))
      {
        RowComparisons(b, col, row, column);
        if b[row][column] == col && b[row][column + 1] == col && b[row][column + 2] == col
          && b[row][column + 3] == col && b[row][column + 4] == col
        {
          return true;
        }
      }
    }
    return false;
  }

  /** The column loops. */
  method ScanColumns(b: Board, col: Cell) returns (found: bool)
    ensures found <==> FiveAlong(b, col, Vertical)
  {
    for column := 0 to 6
      invariant forall r, c :: 0 <= r < 2 && 0 <= c < column ==> !Filled(b, col, Run(Vertical, r, c))
    {
      for row := 0 to 2
        invariant forall r :: 0 <= r < row ==> !Filled(b, col, Run(Vertical, r, column))
      {
        ColumnComparisons(b, col, row, column);
        if b[row][column] == col && b[row + 1][column] == col && b[row + 2][column] == col
          && b[row + 3][column] == col && b[row + 4][column] == col
        {
          return true;
        }
      }
    }
    return false;
  }

  /** The top-left to bottom-right loops. */
  method ScanDownRight(b: Board, col: Cell) returns (found: bool)
    ensures found <==> FiveAlong(b, col, DownRight)
  {
    for row := 0 to 2
      invariant forall r, c :: 0 <= r < row && 0 <= c < 2 ==> !Filled(b, col, Run(DownRight, r, c))
    {
      for column := 0 to 2
        invariant forall c :: 0 <= c < column ==> !Filled(b, col, Run(DownRight, row, c))
      {
        DownRightComparisons(b, col, row, column);
        if b[row][column] == col && b[row + 1][column + 1] == col && b[row + 2][column + 2] == col
          && b[row + 3][column + 3] == col && b[row + 4][column + 4] == col
        {
          return true;
        }
      }
    }
    return false;
  }

  /** The top-right to bottom-left loops; a negative column index wraps. */
  method ScanDownLeft(b: Board, col: Cell) returns (found: bool)
    ensures found <==> FiveAlong(b, col, DownLeft)
  {
    for row := 0 to 2
      invariant forall r, c :: 0 <= r < row && 2 <= c < 6 ==> !Filled(b, col, Run(DownLeft, r, c))
    {
      for column := 2 to 6
        invariant forall c :: 2 <= c < column ==> !Filled(b, col, Run(DownLeft, row, c))
      {
        DownLeftComparisons(b, col, row, column);
        if b[row][column] == col && b[row + 1][PyIndex(column - 1)] == col
          && b[row + 2][PyIndex(column - 2)] == col && b[row + 3][PyIndex(column - 3)] == col
          && b[row + 4][PyIndex(column - 4)] == col
        {
          return true;
        }
      }
    }
    return false;
  }

  /** The five comparisons of one step of each loop are exactly Filled. */
  lemma RowComparisons(b: Board, col: Cell, row: int, column: int)
    requires 0 <= row < 6 && 0 <= column < 2
    ensures Filled(b, col, Run(Horizontal, row, column)) <==>
      (b[row][column] == col && b[row][column + 1] == col && b[row][column + 2] == col
       && b[row][column + 3] == col && b[row][column + 4] == col)
  {
  }

  lemma ColumnComparisons(b: Board, col: Cell, row: int, column: int)
    requires 0 <= row < 2 && 0 <= column < 6
    ensures Filled(b, col, Run(Vertical, row, column)) <==>
      (b[row][column] == col && b[row + 1][column] == col && b[row + 2][column] == col
       && b[row + 3][column] == col && b[row + 4][column] == col)
  {
  }

  lemma DownRightComparisons(b: Board, col: Cell, row: int, column: int)
    requires 0 <= row < 2 && 0 <= column < 2
    ensures Filled(b, col, Run(DownRight, row, column)) <==>
      (b[row][column] == col && b[row + 1][column + 1] == col && b[row + 2][column + 2] == col
       && b[row + 3][column + 3] == col && b[row + 4][column + 4] == col)
  {
  }

  lemma DownLeftComparisons(b: Board, col: Cell, row: int, column: int)
    requires 0 <= row < 2 && 2 <= column < 6
    ensures Filled(b, col, Run(DownLeft, row, column)) <==>
      (b[row][column] == col && b[row + 1][PyIndex(column - 1)] == col
       && b[row + 2][PyIndex(column - 2)] == col && b[row + 3][PyIndex(column - 3)] == col
       && b[row + 4][PyIndex(column - 4)] == col)
  {
  }

  /** check_end_conditions: the scan's verdict for the given colour, as a
      bool rather than a game-state string. It misses no real line of five,
      and it reports every hit of the corrected scan. */
  function CheckEndConditions(b: Board, m: Marble): (r: bool)
    ensures FiveInLine(b, m) ==> r
    ensures HasFiveOnGrid(b, m) ==> r
  {
    ScanFindsEveryLine(b, m);
    HasFive(b, m)
  }

  /** Placing a marble on an empty cell keeps every filled run of marbles
      filled: the only cell that changes held no marble before. */
  lemma PlacingKeepsRun(b: Board, m: Marble, p: Position, col: Marble, s: Run)
    requires OnBoard(p) && b[p.row][p.col] == Empty
    requires Scanned(s) && Filled(b, col, s)
    ensures Filled(Place(b, m, p), col, s)
  {
  }

  /** Placing any marble on an empty cell never takes a five-in-a-row away. */
  lemma PlacingKeepsFive(b: Board, m: Marble, p: Position, col: Marble)
    requires OnBoard(p) && b[p.row][p.col] == Empty
    ensures HasFive(b, col) ==> HasFive(Place(b, m, p), col)
  {
    var b' := Place(b, m, p);
    if FiveAlong(b, col, Horizontal) {
      var r, c :| 0 <= r < 6 && 0 <= c < 2 && Filled(b, col, Run(Horizontal, r, c));
      PlacingKeepsRun(b, m, p, col, Run(Horizontal, r, c));
      assert FiveAlong(b', col, Horizontal);
    } else if FiveAlong(b, col, Vertical) {
      var r, c :| 0 <= r < 2 && 0 <= c < 6 && Filled(b, col, Run(Vertical, r, c));
      PlacingKeepsRun(b, m, p, col, Run(Vertical, r, c));
      assert FiveAlong(b', col, Vertical);
    } else if FiveAlong(b, col, DownRight) {
      var r, c :| 0 <= r < 2 && 0 <= c < 2 && Filled(b, col, Run(DownRight, r, c));
      PlacingKeepsRun(b, m, p, col, Run(DownRight, r, c));
      assert FiveAlong(b', col, DownRight);
    } else if FiveAlong(b, col, DownLeft) {
      var r, c :| 0 <= r < 2 && 2 <= c < 6 && Filled(b, col, Run(DownLeft, r, c));
      PlacingKeepsRun(b, m, p, col, Run(DownLeft, r, c));
      assert FiveAlong(b', col, DownLeft);
    }
  }

  /** Five in a row needs at least two marbles of the colour: a board with
      col at one cell at most has no run, wrapped or not. */
  lemma LoneMarbleHasNoFive(b: Board, col: Cell, p: Position)
    requires forall r, c :: 0 <= r < 6 && 0 <= c < 6 && b[r][c] == col ==> r == p.row && c == p.col
    ensures !HasFive(b, col) && !HasFiveOnGrid(b, col)
  {
    forall s | Scanned(s)
      ensures !Filled(b, col, s)
    {
      assert RunCell(s, 0) != RunCell(s, 1);
    }
  }

  // ---------------------------------------------------------------------
  // The scan restricted to runs that stay on the board, and the geometric
  // notion of five in a row it is meant to decide.
  // ---------------------------------------------------------------------

  /** A scanned run none of whose cells wraps round the board's edge. */
  predicate OnGrid(s: Run)
  {
    Scanned(s) && (s.axis == DownLeft ==> 4 <= s.col)
  }

  /** The scan with down-left starts limited to columns 4 and 5. */
  predicate HasFiveOnGrid(b: Board, col: Cell)
  {
    || FiveAlong(b, col, Horizontal)
    || FiveAlong(b, col, Vertical)
    || FiveAlong(b, col, DownRight)
    || (exists r, c | 0 <= r < 2 && 4 <= c < 6 :: Filled(b, col, Run(DownLeft, r, c)))
  }

  /** The k-th cell of the straight segment from (r, c) along axis a. */
  function LineCell(a: Axis, r: int, c: int, k: int): Position
  {
    match a
    case Horizontal => Position(r, c + k)
    case Vertical => Position(r + k, c)
    case DownRight => Position(r + k, c + k)
    case DownLeft => Position(r + k, c - k)
  }

  /** Five consecutive cells along one axis, all on the board, all col. */
  ghost predicate LineOfFive(b: Board, col: Cell, a: Axis, r: int, c: int)
  {
    forall k :: 0 <= k < 5 ==>
      OnBoard(LineCell(a, r, c, k)) && b[LineCell(a, r, c, k).row][LineCell(a, r, c, k).col] == col
  }

  /** Five in a row in the game's sense: a horizontal, vertical or diagonal
      segment of five cells of the board, all holding col. */
  ghost predicate FiveInLine(b: Board, col: Cell)
  {
    exists a, r, c :: LineOfFive(b, col, a, r, c)
  }

  /** On runs that do not wrap, the source's indexing walks a straight line. */
  lemma OnGridRunIsLine(s: Run, k: int)
    requires OnGrid(s) && 0 <= k < 5
    ensures RunCell(s, k) == LineCell(s.axis, s.row, s.col, k)
  {
  }

  lemma FilledIsLine(b: Board, col: Cell, s: Run)
    requires OnGrid(s)
    ensures Filled(b, col, s) <==> LineOfFive(b, col, s.axis, s.row, s.col)
  {
    if Filled(b, col, s) {
      forall k | 0 <= k < 5
        ensures OnBoard(LineCell(s.axis, s.row, s.col, k))
        ensures b[LineCell(s.axis, s.row, s.col, k).row][LineCell(s.axis, s.row, s.col, k).col] == col
      {
        OnGridRunIsLine(s, k);
        assert CellAt(b, s, k) == col by {
          if k == 0 {} else if k == 1 {} else if k == 2 {} else if k == 3 {} else {}
        }
      }
    }
    if LineOfFive(b, col, s.axis, s.row, s.col) {
      OnGridRunIsLine(s, 0);
      OnGridRunIsLine(s, 1);
      OnGridRunIsLine(s, 2);
      OnGridRunIsLine(s, 3);
      OnGridRunIsLine(s, 4);
      assert CellAt(b, s, 0) == col && CellAt(b, s, 1) == col && CellAt(b, s, 2) == col;
      assert CellAt(b, s, 3) == col && CellAt(b, s, 4) == col;
    }
  }

  /** Every on-board segment of five starts at a cell the on-grid scan visits. */
  lemma LineStartIsScanned(b: Board, col: Cell, a: Axis, r: int, c: int)
    requires LineOfFive(b, col, a, r, c)
    ensures OnGrid(Run(a, r, c))
  {
    assert OnBoard(LineCell(a, r, c, 0));
    assert OnBoard(LineCell(a, r, c, 4));
  }

  /** The on-grid scan decides exactly the geometric five in a row. */
  lemma OnGridScanMatchesLines(b: Board, col: Cell)
    ensures HasFiveOnGrid(b, col) <==> FiveInLine(b, col)
  {
    if HasFiveOnGrid(b, col) {
      ScanHitIsLine(b, col);
    }
    if FiveInLine(b, col) {
      var a, r, c :| LineOfFive(b, col, a, r, c);
      LineIsScanHit(b, col, a, r, c);
    }
  }

  lemma ScanHitIsLine(b: Board, col: Cell)
    requires HasFiveOnGrid(b, col)
    ensures FiveInLine(b, col)
  {
    var s: Run;
    if FiveAlong(b, col, Horizontal) {
      var r, c :| 0 <= r < 6 && 0 <= c < 2 && Filled(b, col, Run(Horizontal, r, c));
      s := Run(Horizontal, r, c);
    } else if FiveAlong(b, col, Vertical) {
      var r, c :| 0 <= r < 2 && 0 <= c < 6 && Filled(b, col, Run(Vertical, r, c));
      s := Run(Vertical, r, c);
    } else if FiveAlong(b, col, DownRight) {
      var r, c :| 0 <= r < 2 && 0 <= c < 2 && Filled(b, col, Run(DownRight, r, c));
      s := Run(DownRight, r, c);
    } else {
      var r, c :| 0 <= r < 2 && 4 <= c < 6 && Filled(b, col, Run(DownLeft, r, c));
      s := Run(DownLeft, r, c);
    }
    FilledIsLine(b, col, s);
    assert LineOfFive(b, col, s.axis, s.row, s.col);
  }

  lemma LineIsScanHit(b: Board, col: Cell, a: Axis, r: int, c: int)
    requires LineOfFive(b, col, a, r, c)
    ensures HasFiveOnGrid(b, col)
  {
    LineStartIsScanned(b, col, a, r, c);
    FilledIsLine(b, col, Run(a, r, c));
    match a
    case Horizontal => assert FiveAlong(b, col, Horizontal);
    case Vertical => assert FiveAlong(b, col, Vertical);
    case DownRight => assert FiveAlong(b, col, DownRight);
    case DownLeft => assert Filled(b, col, Run(DownLeft, r, c));
  }

  /** The as-written scan finds every real five in a row. */
  lemma ScanFindsEveryLine(b: Board, col: Cell)
    ensures FiveInLine(b, col) ==> HasFive(b, col)
  {
    OnGridScanMatchesLines(b, col);
  }

  /** Placing on an empty cell never takes a real five in a row away either. */
  lemma PlacingKeepsFiveOnGrid(b: Board, m: Marble, p: Position, col: Marble)
    requires OnBoard(p) && b[p.row][p.col] == Empty
    ensures HasFiveOnGrid(b, col) ==> HasFiveOnGrid(Place(b, m, p), col)
  {
    var b' := Place(b, m, p);
    if HasFiveOnGrid(b, col) && !FiveAlong(b, col, Horizontal) && !FiveAlong(b, col, Vertical)
      && !FiveAlong(b, col, DownRight)
    {
      var r, c :| 0 <= r < 2 && 4 <= c < 6 && Filled(b, col, Run(DownLeft, r, c));
      PlacingKeepsRun(b, m, p, col, Run(DownLeft, r, c));
    } else {
      PlacingKeepsFive(b, m, p, col);
    }
  }

  /** White marbles on a2, b1, c0, d5 and e4: the first three run down-left
      to the board's edge and the last two sit at the opposite edge. */
  function WrappedBoard(): Board
  {
    seq(6, r requires 0 <= r < 6 => seq(6, c requires 0 <= c < 6 =>
      if (r, c) in {(0, 2), (1, 1), (2, 0), (3, 5), (4, 4)} then White else Empty))
  }

  lemma WrappedBoardWhite(x: int, y: int)
    requires 0 <= x < 6 && 0 <= y < 6
    ensures WrappedBoard()[x][y] == White <==>
      (x == 0 && y == 2) || (x == 1 && y == 1) || (x == 2 && y == 0) || (x == 3 && y == 5) || (x == 4 && y == 4)
  {
  }

  /** No segment of five on the board is all White on the wrapped board. */
  lemma WrappedBoardHasNoLine(a: Axis, r: int, c: int)
    ensures !LineOfFive(WrappedBoard(), White, a, r, c)
  {
    var b := WrappedBoard();
    if LineOfFive(b, White, a, r, c) {
      var p0, p1, p2, p3 := LineCell(a, r, c, 0), LineCell(a, r, c, 1), LineCell(a, r, c, 2), LineCell(a, r, c, 3);
      assert OnBoard(p0) && b[p0.row][p0.col] == White;
      assert OnBoard(p1) && b[p1.row][p1.col] == White;
      assert OnBoard(p2) && b[p2.row][p2.col] == White;
      assert OnBoard(p3) && b[p3.row][p3.col] == White;
      WrappedBoardWhite(p0.row, p0.col);
      WrappedBoardWhite(p1.row, p1.col);
      WrappedBoardWhite(p2.row, p2.col);
      WrappedBoardWhite(p3.row, p3.col);
      assert false;
    }
  }

  /** The as-written scan reports five in a row for White on a board where
      no five White cells are in a line. */
  lemma WrappedRunCounterexample()
    ensures HasFive(WrappedBoard(), White)
    ensures !FiveInLine(WrappedBoard(), White)
    ensures !HasFiveOnGrid(WrappedBoard(), White)
  {
    var b := WrappedBoard();
    assert Filled(b, White, Run(DownLeft, 0, 2));
    assert FiveAlong(b, White, DownLeft);
    forall a, r, c
      ensures !LineOfFive(b, White, a, r, c)
    {
      WrappedBoardHasNoLine(a, r, c);
    }
    OnGridScanMatchesLines(b, White);
  }

  /** Which scan the end-of-turn checks use. */
  datatype Scan = Wrapping | OnGridOnly

  predicate Wins(scan: Scan, b: Board, m: Marble)
  {
    match scan
    case Wrapping => HasFive(b, m)
    case OnGridOnly => HasFiveOnGrid(b, m)
  }
}

=== FILE: game_board.dfy ===
/** GameBoard: the 6x6 grid with placement, the fullness test, and the
    quadrant rotation that goes through the four SubBoard windows. */
module GameBoard {
  import opened Grid
  import opened Exceptions
  import opened SubBoard

  /** update_game_board: writes the marble into one cell. */
  function Place(b: Board, m: Marble, p: Position): (b': Board)
    requires OnBoard(p)
    ensures b'[p.row][p.col] == m
    ensures forall r, c :: 0 <= r < 6 && 0 <= c < 6 && (r, c) != (p.row, p.col) ==> b'[r][c] == b[r][c]
  {
    b[p.row := b[p.row][p.col := m]]
  }

  /** The sub-board dictionary: ids 1 to 4, anything else is a missing key. */
  function QuadrantOf(id: int): (q: Option<Quadrant>)
    ensures q.Some? <==> 1 <= id <= 4
    ensures id == 1 ==> q == Some(TopLeft)
    ensures id == 2 ==> q == Some(TopRight)
    ensures id == 3 ==> q == Some(BottomLeft)
    ensures id == 4 ==> q == Some(BottomRight)
  {
    if id == 1 then Some(TopLeft)
    else if id == 2 then Some(TopRight)
    else if id == 3 then Some(BottomLeft)
    else if id == 4 then Some(BottomRight)
    else None
  }

  /** update_board_from_sub_boards: for quadrants 1 to 4 in turn, reads the
      window from the current board and copies it back into the same cells.
      Because the windows are views of the board itself, this changes nothing. */
  function UpdateFromSubBoards(b: Board): (b': Board)
    ensures b' == b
  {
    var b1 := PutSubBoard(b, TopLeft, GetSubBoard(b, TopLeft));
    var b2 := PutSubBoard(b1, TopRight, GetSubBoard(b1, TopRight));
    var b3 := PutSubBoard(b2, BottomLeft, GetSubBoard(b2, BottomLeft));
    var b4 := PutSubBoard(b3, BottomRight, GetSubBoard(b3, BottomRight));
    PutWhatWasRead(b, TopLeft);
    PutWhatWasRead(b1, TopRight);
    PutWhatWasRead(b2, BottomLeft);
    PutWhatWasRead(b3, BottomRight);
    b4
  }

  /** rotate_sub_board: looks the id up (KeyError when it is not 1 to 4),
      rotates that sub-board, then re-syncs the board from all four. */
  function RotateSubBoard(b: Board, id: int, rotation: string): (r: Result<Board>)
    ensures !(1 <= id <= 4) ==> r == Fail(KeyError)
    ensures 1 <= id <= 4 && rotation != "C" && rotation != "A" ==> r == Fail(UnboundLocalError)
    ensures 1 <= id <= 4 && rotation == "C" ==> r == Ok(Turn(b, QuadrantOf(id).value, Clockwise))
    ensures 1 <= id <= 4 && rotation == "A" ==> r == Ok(Turn(b, QuadrantOf(id).value, Anticlockwise))
  {
    match QuadrantOf(id)
    case None => Fail(KeyError)
    case Some(q) =>
      match Rotate(b, q, rotation)
      case Fail(e) => Fail(e)
      case Ok(b') => Ok(UpdateFromSubBoards(b'))
  }

  /** Whether rows i.. contain no '.' cell: the loop of is_full from row i on. */
  function RowsFull(b: Board, i: nat): (full: bool)
    requires i <= 6
    decreases 6 - i
    ensures full <==> forall r, c :: i <= r < 6 && 0 <= c < 6 ==> b[r][c] != Empty
  {
    if i == 6 then true
    else if Empty in b[i] then false
    else RowsFull(b, i + 1)
  }

  /** is_full: true exactly when no cell of the board is empty. */
  function IsFull(b: Board): (full: bool)
    ensures full <==> forall r, c :: 0 <= r < 6 && 0 <= c < 6 ==> b[r][c] != Empty
  {
    RowsFull(b, 0)
  }
}

=== FILE: grid.dfy ===
/** Cells, marbles, positions and the 6x6 board shared by every part of the game. */
module Grid {

  /** One board cell; the source writes these as '.', 'W' and 'B'. */
  datatype Cell = Empty | White | Black

  /** A colour a player can place: every cell value except Empty. */
  type Marble = c: Cell | c != Empty witness White

  /** The other player's colour. */
  function Other(m: Marble): (o: Marble)
    ensures o != m
  {
    if m == White then Black else White
  }

  /** There are only two colours: a colour that is not m is m's other. */
  lemma OtherIsTheRest(a: Marble, m: Marble)
    requires a != m
    ensures a == Other(m)
  {
  }

  /** An n x n grid of cells. */
  predicate IsGrid(g: seq<seq<Cell>>, n: nat)
  {
    |g| == n && forall i :: 0 <= i < n ==> |g[i]| == n
  }

  function EmptyGrid(n: nat): (g: seq<seq<Cell>>)
    ensures IsGrid(g, n)
    ensures forall i, j :: 0 <= i < n && 0 <= j < n ==> g[i][j] == Empty
  {
    seq(n, _ => seq(n, _ => Empty))
  }

  /** The main board: a list of six rows of six cells. */
  type Board = b: seq<seq<Cell>> | IsGrid(b, 6) witness EmptyGrid(6)

  /** A quadrant's contents: three rows of three cells. */
  type Window = w: seq<seq<Cell>> | IsGrid(w, 3) witness EmptyGrid(3)

  /** A decoded (row, column) pair; the column may still be off the board. */
  datatype Position = Position(row: int, col: int)

  predicate OnBoard(p: Position)
  {
    0 <= p.row < 6 && 0 <= p.col < 6
  }

  /** Two boards with the same 36 cells are the same board. */
  lemma BoardExt(a: Board, b: Board)
    requires forall r, c :: 0 <= r < 6 && 0 <= c < 6 ==> a[r][c] == b[r][c]
    ensures a == b
  {
    forall r | 0 <= r < 6
      ensures a[r] == b[r]
    {
    }
  }

  /** Two windows with the same 9 cells are the same window. */
  lemma WindowExt(a: Window, b: Window)
    requires forall r, c :: 0 <= r < 3 && 0 <= c < 3 ==> a[r][c] == b[r][c]
    ensures a == b
  {
    forall r | 0 <= r < 3
      ensures a[r] == b[r]
    {
    }
  }
}

=== FILE: intended_move.dfy ===
/** make_move as its code and comments lay it out at lines 106-152 of
    Pentago.py: a placement that gives the mover five in a row ends the
    game with the mover's win, and otherwise the named sub-board is rotated
    and the post-rotation decision runs. The five-in-a-row checks count only
    runs that stay on the board. Everything else, including the order of
    checks and where exceptions surface, is the source's. */
module IntendedMove {
  import opened Grid
  import opened Exceptions
  import opened SubBoard
  import opened GameBoard
  import opened FiveInARow
  import opened Pentago

  function MakeMoveIntended(g: Game, color: string, position: string, subBoard: int, rotation: string): (res: (Game, Outcome))
    ensures PlaceMarble(g, color, position).Stopped? ==>
      res == (PlaceMarble(g, color, position).game, PlaceMarble(g, color, position).outcome)
    ensures res.1 == Accepted || res.1.Raised? || (res.0.board == g.board && res.0.state == g.state)
  {
    match PlaceMarble(g, color, position)
    case Stopped(g1, outcome) => (g1, outcome)
    case Placed(g1, m, p) =>
      if Wins(OnGridOnly, g1.board, m) then (g1.(state := Won(m)), Accepted)
      else
        match RotateSubBoard(g1.board, subBoard, rotation)
        case Fail(e) => (g1, Raised(e))
        case Ok(b) => (FinishTurn(OnGridOnly, g1.(board := UpdateFromSubBoards(b)), m), Accepted)
  }

  /** A move that leaves the game unfinished hands the turn to the other
      colour and records the mover as the opponent. */
  lemma ContinuingMovePassesTurn(g: Game, color: string, position: string, subBoard: int, rotation: string)
    requires MakeMoveIntended(g, color, position, subBoard, rotation).1 == Accepted
    requires MakeMoveIntended(g, color, position, subBoard, rotation).0.state == Unfinished
    ensures MakeMoveIntended(g, color, position, subBoard, rotation).0.current == Some(Other(ColorOf(color)))
    ensures MakeMoveIntended(g, color, position, subBoard, rotation).0.opponent == Some(ColorOf(color))
  {
    var st := PlaceMarble(g, color, position);
    assert st.Placed?;
    var g1, m := st.game, st.mover;
    assert !Wins(OnGridOnly, g1.board, m);
    var rotated := RotateSubBoard(g1.board, subBoard, rotation);
    assert rotated.Ok?;
    var g2 := g1.(board := UpdateFromSubBoards(rotated.value));
    var g3 := FinishTurn(OnGridOnly, g2, m);
    assert MakeMoveIntended(g, color, position, subBoard, rotation).0 == g3;
    assert g3.state == g2.state;
  }

  /** No move gets through once the game is over; only the current-player
      field changes, since it is written before the checks. */
  lemma IntendedFinishedRefusesMoves(g: Game, color: string, position: string, subBoard: int, rotation: string)
    requires g.state != Unfinished
    ensures var res := MakeMoveIntended(g, color, position, subBoard, rotation);
      res.0.board == g.board && res.0.state == g.state && res.0.opponent == g.opponent &&
      (if ConvertPosition(position).Ok? then res.1 == Rejected(GameFinished) else res.1.Raised?)
  {
  }

  /** A placement that makes five in a row wins at once, without rotating. */
  lemma PlacementWinSkipsRotation(g: Game, color: string, position: string, subBoard: int, rotation: string)
    requires PlaceMarble(g, color, position).Placed?
    requires HasFiveOnGrid(PlaceMarble(g, color, position).game.board, ColorOf(color))
    ensures var res := MakeMoveIntended(g, color, position, subBoard, rotation);
      res.1 == Accepted && res.0.state == Won(ColorOf(color)) &&
      res.0.board == Place(g.board, ColorOf(color), ConvertPosition(position).value)
  {
  }

  /** Without a placement win, the named quadrant is turned and nothing else
      on the board moves besides the placed marble. */
  lemma NoPlacementWinRotates(g: Game, color: string, position: string, subBoard: int, rotation: string)
    requires PlaceMarble(g, color, position).Placed?
    requires !HasFiveOnGrid(PlaceMarble(g, color, position).game.board, ColorOf(color))
    requires 1 <= subBoard <= 4 && ParseDirection(rotation).Some?
    ensures var res := MakeMoveIntended(g, color, position, subBoard, rotation);
      var placed := Place(g.board, ColorOf(color), ConvertPosition(position).value);
      res.1 == Accepted &&
      res.0.board == Turn(placed, QuadrantOf(subBoard).value, ParseDirection(rotation).value)
  {
    var g1 := PlaceMarble(g, color, position).game;
    var turned := Turn(g1.board, QuadrantOf(subBoard).value, ParseDirection(rotation).value);
    assert RotateSubBoard(g1.board, subBoard, rotation) == Ok(turned);
    RotatedMoveFinishes(g, color, position, subBoard, rotation);
  }

  /** Without a placement win and with a valid sub-board and token, the
      corrected move is the post-rotation decision on the turned board:
      FinishTurn's table then settles the mover-only win, the opponent-only
      win, the double five, the full board and the continuing game. */
  lemma RotatedMoveFinishes(g: Game, color: string, position: string, subBoard: int, rotation: string)
    requires PlaceMarble(g, color, position).Placed?
    requires !HasFiveOnGrid(PlaceMarble(g, color, position).game.board, ColorOf(color))
    requires 1 <= subBoard <= 4 && ParseDirection(rotation).Some?
    ensures var g1 := PlaceMarble(g, color, position).game;
      var turned := Turn(g1.board, QuadrantOf(subBoard).value, ParseDirection(rotation).value);
      MakeMoveIntended(g, color, position, subBoard, rotation) ==
        (FinishTurn(OnGridOnly, g1.(board := turned), ColorOf(color)), Accepted)
  {
    var st := PlaceMarble(g, color, position);
    var g1, m := st.game, st.mover;
    assert !Wins(OnGridOnly, g1.board, m);
    var turned := Turn(g1.board, QuadrantOf(subBoard).value, ParseDirection(rotation).value);
    assert RotateSubBoard(g1.board, subBoard, rotation) == Ok(turned);
    assert UpdateFromSubBoards(turned) == turned;
  }

  /** A bad sub-board id or rotation token raises after the marble is
      already on the board and before any state change. */
  lemma BadRotationRaisesAfterPlacing(g: Game, color: string, position: string, subBoard: int, rotation: string)
    requires PlaceMarble(g, color, position).Placed?
    requires !HasFiveOnGrid(PlaceMarble(g, color, position).game.board, ColorOf(color))
    requires !(1 <= subBoard <= 4) || ParseDirection(rotation).None?
    ensures var res := MakeMoveIntended(g, color, position, subBoard, rotation);
      res.1 == Raised(if 1 <= subBoard <= 4 then UnboundLocalError else KeyError) &&
      res.0.board == Place(g.board, ColorOf(color), ConvertPosition(position).value) &&
      res.0.state == g.state
  {
  }

  /** When the rotation gives both colours five in a row, the game is drawn. */
  lemma DoubleFiveAfterRotationIsDraw(g: Game, color: string, position: string, subBoard: int, rotation: string)
    requires PlaceMarble(g, color, position).Placed?
    requires !HasFiveOnGrid(PlaceMarble(g, color, position).game.board, ColorOf(color))
    requires 1 <= subBoard <= 4 && ParseDirection(rotation).Some?
    requires var placed := Place(g.board, ColorOf(color), ConvertPosition(position).value);
      var turned := Turn(placed, QuadrantOf(subBoard).value, ParseDirection(rotation).value);
      HasFiveOnGrid(turned, White) && HasFiveOnGrid(turned, Black)
    ensures MakeMoveIntended(g, color, position, subBoard, rotation).0.state == Draw
  {
    var st := PlaceMarble(g, color, position);
    var g1, m := st.game, st.mover;
    assert !Wins(OnGridOnly, g1.board, m);
    var turned := Turn(g1.board, QuadrantOf(subBoard).value, ParseDirection(rotation).value);
    assert RotateSubBoard(g1.board, subBoard, rotation) == Ok(turned);
    var g2 := g1.(board := UpdateFromSubBoards(turned));
    assert Wins(OnGridOnly, g2.board, m) && Wins(OnGridOnly, g2.board, Other(m));
    assert MakeMoveIntended(g, color, position, subBoard, rotation) == (FinishTurn(OnGridOnly, g2, m), Accepted);
  }

  /** Two accepted moves in a row, the first leaving the game unfinished,
      are by opposite colours: the first mover is then the opponent, and the
      turn check refuses the opponent. */
  lemma AcceptedMovesAlternate(g: Game, c1: string, p1: string, s1: int, r1: string,
                               c2: string, p2: string, s2: int, r2: string)
    requires MakeMoveIntended(g, c1, p1, s1, r1).1 == Accepted
    requires MakeMoveIntended(g, c1, p1, s1, r1).0.state == Unfinished
    requires MakeMoveIntended(MakeMoveIntended(g, c1, p1, s1, r1).0, c2, p2, s2, r2).1 == Accepted
    ensures ColorOf(c2) == Other(ColorOf(c1))
  {
    var g1 := MakeMoveIntended(g, c1, p1, s1, r1).0;
    ContinuingMovePassesTurn(g, c1, p1, s1, r1);
    assert PlaceMarble(g1, c2, p2).Placed?;
  }

  /** A call that is not accepted leaves the turn order alone: whatever it
      writes into the current-player field, the recorded opponent and the
      game state are those from before. */
  lemma RefusedCallKeepsOpponent(g: Game, color: string, position: string, subBoard: int, rotation: string)
    requires MakeMoveIntended(g, color, position, subBoard, rotation).1 != Accepted
    ensures MakeMoveIntended(g, color, position, subBoard, rotation).0.opponent == g.opponent
    ensures MakeMoveIntended(g, color, position, subBoard, rotation).0.state == g.state
  {
  }

  /** The colour recorded as the opponent never gets a move accepted. */
  lemma AcceptedMoverIsNotOpponent(g: Game, color: string, position: string, subBoard: int, rotation: string)
    requires MakeMoveIntended(g, color, position, subBoard, rotation).1 == Accepted
    ensures Some(ColorOf(color)) != g.opponent
  {
  }

  /** A sequence of calls on one engine with the corrected move. */
  function PlayIntended(g: Game, calls: seq<Call>): (res: (Game, seq<Outcome>))
    ensures |res.1| == |calls|
    ensures |calls| > 0 ==>
      res.1[0] == MakeMoveIntended(g, calls[0].color, calls[0].position, calls[0].subBoard, calls[0].rotation).1
    decreases |calls|
  {
    if |calls| == 0 then (g, [])
    else
      var step := MakeMoveIntended(g, calls[0].color, calls[0].position, calls[0].subBoard, calls[0].rotation);
      var rest := PlayIntended(step.0, calls[1..]);
      (rest.0, [step.1] + rest.1)
  }

  /** Call k is the first of the outcomes that was accepted. */
  predicate FirstAcceptedAt(outcomes: seq<Outcome>, k: int)
  {
    0 <= k < |outcomes| && outcomes[k] == Accepted &&
    forall j :: 0 <= j < k ==> outcomes[j] != Accepted
  }

  /** Refused and raising calls in between do not let the opponent through:
      in any sequence of calls, the first one accepted is not by the colour
      recorded as the opponent at the start. */
  lemma {:induction false} FirstAcceptedIsNotOpponent(g: Game, calls: seq<Call>, w: Marble, k: int)
    requires g.opponent == Some(w)
    requires FirstAcceptedAt(PlayIntended(g, calls).1, k)
    ensures ColorOf(calls[k].color) != w
    ensures ColorOf(calls[k].color) == Other(w)
    decreases k
  {
    var c := calls[0];
    var step := MakeMoveIntended(g, c.color, c.position, c.subBoard, c.rotation);
    var rest := PlayIntended(step.0, calls[1..]);
    assert PlayIntended(g, calls).1 == [step.1] + rest.1;
    if k == 0 {
      AcceptedMoverIsNotOpponent(g, c.color, c.position, c.subBoard, c.rotation);
      OtherIsTheRest(ColorOf(c.color), w);
    } else {
      assert step.1 != Accepted;
      RefusedCallKeepsOpponent(g, c.color, c.position, c.subBoard, c.rotation);
      forall j | 0 <= j < k - 1
        ensures rest.1[j] != Accepted
      {
        assert PlayIntended(g, calls).1[j + 1] == rest.1[j];
      }
      assert rest.1[k - 1] == PlayIntended(g, calls).1[k];
      FirstAcceptedIsNotOpponent(step.0, calls[1..], w, k - 1);
      assert calls[1..][k - 1] == calls[k];
    }
  }

  /** After an accepted move that keeps the game going, the next accepted
      move, however many calls are refused or raise in between, is by the
      other colour. */
  lemma NextAcceptedMoveAlternates(g: Game, color: string, position: string, subBoard: int, rotation: string,
                                   calls: seq<Call>, k: int)
    requires MakeMoveIntended(g, color, position, subBoard, rotation).1 == Accepted
    requires MakeMoveIntended(g, color, position, subBoard, rotation).0.state == Unfinished
    requires FirstAcceptedAt(PlayIntended(MakeMoveIntended(g, color, position, subBoard, rotation).0, calls).1, k)
    ensures ColorOf(calls[k].color) == Other(ColorOf(color))
  {
    var g1 := MakeMoveIntended(g, color, position, subBoard, rotation).0;
    ContinuingMovePassesTurn(g, color, position, subBoard, rotation);
    assert g1.opponent == Some(ColorOf(color));
    FirstAcceptedIsNotOpponent(g1, calls, ColorOf(color), k);
  }

  // The literal arguments of the opening below, decoded once each.

  lemma OpeningArguments()
    ensures ConvertPosition("a0") == Ok(Position(0, 0))
    ensures ConvertPosition("a1") == Ok(Position(0, 1))
    ensures ColorOf("white") == White
    ensures ColorOf("black") == Black
  {
    assert "black"[0] != "WHITE"[0] && "black"[0] != "white"[0];
  }

  /** A clockwise turn of the top-left sub-board carries a lone marble at
      (0, 0) to (0, 2). */
  lemma CornerTurnsClockwise(b: Board, m: Marble)
    requires forall r, c :: 0 <= r < 6 && 0 <= c < 6 ==> b[r][c] == (if r == 0 && c == 0 then m else Empty)
    ensures forall r, c :: 0 <= r < 6 && 0 <= c < 6 ==>
      Turn(b, TopLeft, Clockwise)[r][c] == (if r == 0 && c == 2 then m else Empty)
  {
    forall r, c | 0 <= r < 6 && 0 <= c < 6
      ensures Turn(b, TopLeft, Clockwise)[r][c] == (if r == 0 && c == 2 then m else Empty)
    {
      var s := TurnFrom(TopLeft, Clockwise, r, c);
      assert s == (0, 0) <==> r == 0 && c == 2;
    }
  }

  /** A quiet move: the marble is placed, no line of five forms before or
      after the turn and the turned board is not full. It is accepted, the
      board is the turned one, and the turn passes to the other colour. */
  lemma QuietMoveContinues(g: Game, color: string, position: string, subBoard: int, rotation: string)
    requires PlaceMarble(g, color, position).Placed?
    requires !HasFiveOnGrid(PlaceMarble(g, color, position).game.board, ColorOf(color))
    requires 1 <= subBoard <= 4 && ParseDirection(rotation).Some?
    requires var turned := Turn(PlaceMarble(g, color, position).game.board, QuadrantOf(subBoard).value, ParseDirection(rotation).value);
      !HasFiveOnGrid(turned, White) && !HasFiveOnGrid(turned, Black) && !IsFull(turned)
    ensures var res := MakeMoveIntended(g, color, position, subBoard, rotation);
      && res.1 == Accepted && res.0.state == Unfinished
      && res.0.board == Turn(PlaceMarble(g, color, position).game.board, QuadrantOf(subBoard).value, ParseDirection(rotation).value)
      && res.0.current == Some(Other(ColorOf(color))) && res.0.opponent == Some(ColorOf(color))
  {
    var st := PlaceMarble(g, color, position);
    var g1, m := st.game, st.mover;
    assert !Wins(OnGridOnly, g1.board, m);
    var turned := Turn(g1.board, QuadrantOf(subBoard).value, ParseDirection(rotation).value);
    var rotated := RotateSubBoard(g1.board, subBoard, rotation);
    assert rotated == Ok(turned);
    var g2 := g1.(board := UpdateFromSubBoards(turned));
    assert !Wins(OnGridOnly, g2.board, m) && !Wins(OnGridOnly, g2.board, Other(m));
    var g3 := FinishTurn(OnGridOnly, g2, m);
    assert MakeMoveIntended(g, color, position, subBoard, rotation) == (g3, Accepted);
  }

  /** A board whose only marble is White at (0, 0) has no line, and after
      a clockwise turn of the top-left sub-board it still has none, is not
      full, and holds that marble at (0, 2) with (0, 1) empty. */
  lemma CornerOpeningIsQuiet(b: Board)
    requires forall r, c :: 0 <= r < 6 && 0 <= c < 6 ==> b[r][c] == (if r == 0 && c == 0 then White else Empty)
    ensures !HasFiveOnGrid(b, White)
    ensures var t := Turn(b, TopLeft, Clockwise);
      && !HasFiveOnGrid(t, White) && !HasFiveOnGrid(t, Black) && !IsFull(t)
      && t[0][2] == White && t[0][1] == Empty
  {
    LoneMarbleHasNoFive(b, White, Position(0, 0));
    var t := Turn(b, TopLeft, Clockwise);
    CornerTurnsClockwise(b, White);
    LoneMarbleHasNoFive(t, White, Position(0, 2));
    LoneMarbleHasNoFive(t, Black, Position(0, 2));
    assert t[0][0] == Empty;
  }

  /** White's first move on a0 of an empty board, with a clockwise turn of
      sub-board 1, through the corrected move: accepted, the marble ends at
      (0, 2), the game goes on with Black to move. */
  lemma OpeningMove(g: Game, color: string, position: string)
    requires g.current == None && g.opponent == None && g.state == Unfinished
    requires forall r, c :: 0 <= r < 6 && 0 <= c < 6 ==> g.board[r][c] == Empty
    requires ColorOf(color) == White && ConvertPosition(position) == Ok(Position(0, 0))
    ensures var first := MakeMoveIntended(g, color, position, 1, "C");
      && first.1 == Accepted && first.0.state == Unfinished
      && first.0.current == Some(Black) && first.0.opponent == Some(White)
      && first.0.board[0][2] == White && first.0.board[0][1] == Empty
  {
    var placed := PlaceMarble(g, color, position).game.board;
    assert forall r, c :: 0 <= r < 6 && 0 <= c < 6 ==> placed[r][c] == (if r == 0 && c == 0 then White else Empty);
    CornerOpeningIsQuiet(placed);
    QuietMoveContinues(g, color, position, 1, "C");
  }

  /** A move that places its marble and names a real sub-board and
      direction is accepted, whatever the board then shows. */
  lemma PlacedMoveIsAccepted(g: Game, color: string, position: string, subBoard: int, rotation: string)
    requires PlaceMarble(g, color, position).Placed?
    requires 1 <= subBoard <= 4 && ParseDirection(rotation).Some?
    ensures MakeMoveIntended(g, color, position, subBoard, rotation).1 == Accepted
  {
    var st := PlaceMarble(g, color, position);
    var g1, m := st.game, st.mover;
    if !Wins(OnGridOnly, g1.board, m) {
      var rotated := RotateSubBoard(g1.board, subBoard, rotation);
      assert rotated.Ok?;
      var g3 := FinishTurn(OnGridOnly, g1.(board := UpdateFromSubBoards(rotated.value)), m);
      assert MakeMoveIntended(g, color, position, subBoard, rotation) == (g3, Accepted);
    }
  }

  /** Black's a1 with a clockwise turn of sub-board 1 is accepted in any
      unfinished game where White is the opponent and a1 is empty. */
  lemma BlackReplyAccepted(g: Game, color: string, position: string)
    requires g.state == Unfinished && g.opponent == Some(White) && g.board[0][1] == Empty
    requires ColorOf(color) == Black && ConvertPosition(position) == Ok(Position(0, 1))
    ensures MakeMoveIntended(g, color, position, 1, "C").1 == Accepted
  {
    assert PlaceMarble(g, color, position).Placed?;
    PlacedMoveIsAccepted(g, color, position, 1, "C");
  }

  /** Two opening moves through the corrected move, for any spelling of
      the arguments that decodes to White on a0 and then Black on a1, each
      with a clockwise turn of sub-board 1. */
  lemma OpeningAndReply(g: Game, c1: string, p1: string, c2: string, p2: string)
    requires g.current == None && g.opponent == None && g.state == Unfinished
    requires forall r, c :: 0 <= r < 6 && 0 <= c < 6 ==> g.board[r][c] == Empty
    requires ColorOf(c1) == White && ConvertPosition(p1) == Ok(Position(0, 0))
    requires ColorOf(c2) == Black && ConvertPosition(p2) == Ok(Position(0, 1))
    ensures var first := MakeMoveIntended(g, c1, p1, 1, "C");
      && first.1 == Accepted && first.0.state == Unfinished
      && first.0.current == Some(Black) && first.0.opponent == Some(White)
      && MakeMoveIntended(first.0, c2, p2, 1, "C").1 == Accepted
  {
    OpeningMove(g, c1, p1);
    BlackReplyAccepted(MakeMoveIntended(g, c1, p1, 1, "C").0, c2, p2);
  }

  /** The opening that ends the game under the code as written continues
      here: the game stays unfinished with Black to move, and Black's reply
      on a1 is accepted. */
  lemma IntendedFirstMoveContinues()
    ensures var first := MakeMoveIntended(NewGame(), "white", "a0", 1, "C");
      && first.1 == Accepted && first.0.state == Unfinished
      && first.0.current == Some(Black) && first.0.opponent == Some(White)
      && MakeMoveIntended(first.0, "black", "a1", 1, "C").1 == Accepted
  {
    OpeningArguments();
    OpeningAndReply(NewGame(), "white", "a0", "black", "a1");
  }
}

=== FILE: pentago.dfy ===
/** The Pentago class: position decoding, move validation, turn switching,
    the end-of-turn decision, and make_move exactly as the source writes it. */
module Pentago {
  import opened Grid
  import opened Exceptions
  import opened SubBoard
  import opened GameBoard
  import opened FiveInARow

  /** The stored game state: one of the four state strings, or the bool that
      check_end_conditions returns and make_move stores. */
  datatype GameState = Unfinished | Won(winner: Marble) | Draw | Flag(flag: bool)

  /** The engine's fields; the move log is not modelled. */
  datatype Game = Game(board: Board, current: Option<Marble>, opponent: Option<Marble>, state: GameState)

  /** The three refusals is_valid_move returns as strings. */
  datatype Rejection = GameFinished | NotThisPlayersTurn | PositionNotEmpty

  /** What a call returns: True, a refusal string, or a raised exception. */
  datatype Outcome = Accepted | Rejected(reason: Rejection) | Raised(error: PyError)

  /** The string is_valid_move returns for each refusal. */
  function Message(r: Rejection): string
  {
    match r
    case GameFinished => "game is finished"
    case NotThisPlayersTurn => "not this player's turn"
    case PositionNotEmpty => "position is not empty"
  }

  /** The three refusal strings differ, so a caller can tell the refusal
      from the string alone; none of them is a truthy True. */
  lemma MessagesIdentifyRefusals(r1: Rejection, r2: Rejection)
    ensures Message(r1) == Message(r2) <==> r1 == r2
    ensures |Message(r1)| > 0
  {
  }

  /** A fresh engine: empty board, no players yet, state UNFINISHED. */
  function NewGame(): (g: Game)
    ensures g.state == Unfinished && g.current == None && g.opponent == None
    ensures forall r, c :: 0 <= r < 6 && 0 <= c < 6 ==> g.board[r][c] == Empty
  {
    Game(EmptyGrid(6), None, None, Unfinished)
  }

  // ---------------------------------------------------------------------
  // convert_position
  // ---------------------------------------------------------------------

  /** The row letters of convert_position's dictionary. */
  const RowLetters: map<char, int> := map['a' := 0, 'b' := 1, 'c' := 2, 'd' := 3, 'e' := 4, 'f' := 5]

  /** str.lower on one character, for the ASCII letters. */
  function LowerChar(ch: char): char
  {
    if 'A' <= ch <= 'Z' then (ch as int + 32) as char else ch
  }

  predicate IsDigit(ch: char)
  {
    '0' <= ch <= '9'
  }

  /** convert_position: the first character, lower-cased, is looked up in the
      row dictionary (KeyError if absent); the second is passed to int()
      (ValueError if not a digit). A string too short for either index raises
      IndexError. Characters after the second are never read. */
  function ConvertPosition(s: string): (r: Result<Position>)
    ensures r.Ok? <==> |s| >= 2 && s[0] in "abcdefABCDEF" && s[1] in "0123456789"
    ensures r.Ok? ==> 0 <= r.value.row < 6 && 0 <= r.value.col < 10
    ensures r.Ok? ==> s[0] == "abcdef"[r.value.row] || s[0] == "ABCDEF"[r.value.row]
    ensures r.Ok? ==> s[1] == "0123456789"[r.value.col]
    ensures |s| == 0 ==> r == Fail(IndexError)
    ensures |s| > 0 && s[0] !in "abcdefABCDEF" ==> r == Fail(KeyError)
    ensures |s| == 1 && s[0] in "abcdefABCDEF" ==> r == Fail(IndexError)
    ensures |s| >= 2 && s[0] in "abcdefABCDEF" && s[1] !in "0123456789" ==> r == Fail(ValueError)
  {
    if |s| == 0 then Fail(IndexError)
    else if LowerChar(s[0]) !in RowLetters then Fail(KeyError)
    else if |s| == 1 then Fail(IndexError)
    else if !IsDigit(s[1]) then Fail(ValueError)
    else Ok(Position(RowLetters[LowerChar(s[0])], s[1] as int - '0' as int))
  }

  /** The two-character name of a cell, row letter then column digit. */
  function PositionName(p: Position): string
    requires 0 <= p.row < 6 && 0 <= p.col < 10
  {
    ["abcdef"[p.row], "0123456789"[p.col]]
  }

  /** Decoding a position's name, in either case and with anything after
      it, gives back the position. */
  lemma ConvertPositionRoundTrip(p: Position, rest: string)
    requires 0 <= p.row < 6 && 0 <= p.col < 10
    ensures ConvertPosition(PositionName(p) + rest) == Ok(p)
    ensures ConvertPosition(["ABCDEF"[p.row], "0123456789"[p.col]] + rest) == Ok(p)
  {
  }

  /** Every successful decode comes from a position name. */
  lemma ConvertPositionOnlyNames(s: string)
    requires ConvertPosition(s).Ok?
    ensures var p := ConvertPosition(s).value;
      s[..2] == PositionName(p) || s[..2] == ["ABCDEF"[p.row], "0123456789"[p.col]]
  {
  }

  // ---------------------------------------------------------------------
  // The mover's colour
  // ---------------------------------------------------------------------

  const LowerAlphabet: string := "abcdefghijklmnopqrstuvwxyz"
  const UpperAlphabet: string := "ABCDEFGHIJKLMNOPQRSTUVWXYZ"

  /** str.upper on one character, for the ASCII letters: the k-th small
      letter becomes the k-th capital, every other character is kept. */
  function UpperChar(ch: char): (u: char)
    ensures forall k :: 0 <= k < 26 && ch == LowerAlphabet[k] ==> u == UpperAlphabet[k]
    ensures ch !in LowerAlphabet ==> u == ch
  {
    if 'a' <= ch <= 'z' then (ch as int - 32) as char else ch
  }

  /** str.upper for the ASCII letters. */
  function Upper(s: string): (u: string)
    ensures |u| == |s|
    ensures forall i :: 0 <= i < |s| ==> u[i] == UpperChar(s[i])
  {
    seq(|s|, i requires 0 <= i < |s| => UpperChar(s[i]))
  }

  /** A converted character is never a small letter, so converting it
      again keeps it. */
  lemma UpperCharIdempotent(ch: char)
    ensures UpperChar(ch) !in LowerAlphabet
    ensures UpperChar(UpperChar(ch)) == UpperChar(ch)
  {
  }

  /** Upper-casing twice is upper-casing once. */
  lemma UpperIdempotent(s: string)
    ensures Upper(Upper(s)) == Upper(s)
  {
    forall i | 0 <= i < |s|
      ensures Upper(Upper(s))[i] == Upper(s)[i]
    {
      UpperCharIdempotent(s[i]);
    }
  }

  /** make_move's colour conversion: "WHITE" in any letter case is White,
      every other string, "black" or not, is Black. */
  function ColorOf(color: string): (m: Marble)
    ensures m == White <==> |color| == 5 && forall i :: 0 <= i < 5 ==> color[i] == "WHITE"[i] || color[i] == "white"[i]
  {
    if Upper(color) == "WHITE" then White else Black
  }

  // ---------------------------------------------------------------------
  // is_valid_move and switch_player
  // ---------------------------------------------------------------------

  /** is_valid_move: the checks in source order. A decoded column of 6 to 9
      passes the first two checks and then raises IndexError on the board
      lookup. */
  function IsValidMove(g: Game, p: Position, player: Option<Marble>): (v: Outcome)
    requires 0 <= p.row < 6 && 0 <= p.col
    ensures v == Accepted <==>
      g.state == Unfinished && player != g.opponent && p.col < 6 && g.board[p.row][p.col] == Empty
    ensures g.state != Unfinished ==> v == Rejected(GameFinished)
    ensures g.state == Unfinished && player == g.opponent ==> v == Rejected(NotThisPlayersTurn)
    ensures g.state == Unfinished && player != g.opponent && p.col >= 6 ==> v == Raised(IndexError)
    ensures g.state == Unfinished && player != g.opponent && p.col < 6 && g.board[p.row][p.col] != Empty
      ==> v == Rejected(PositionNotEmpty)
  {
    if g.state != Unfinished then Rejected(GameFinished)
    else if player == g.opponent then Rejected(NotThisPlayersTurn)
    else if p.col >= 6 then Raised(IndexError)
    else if g.board[p.row][p.col] != Empty then Rejected(PositionNotEmpty)
    else Accepted
  }

  /** switch_player: the current player becomes the other colour and the
      opponent becomes the previous current player; with no current player
      nothing changes. */
  function SwitchPlayer(g: Game): (g': Game)
    ensures g'.board == g.board && g'.state == g.state
    ensures g.current == None ==> g' == g
    ensures g.current.Some? ==> g'.current == Some(Other(g.current.value)) && g'.opponent == g.current
  {
    if g.current == Some(Black) then g.(current := Some(White), opponent := Some(Black))
    else if g.current == Some(White) then g.(current := Some(Black), opponent := Some(White))
    else g
  }

  /** Switching twice gives back the current player, and once the opponent
      is the current player's other colour, gives back the whole game. */
  lemma SwitchPlayerTwice(g: Game)
    ensures SwitchPlayer(SwitchPlayer(g)).current == g.current
    ensures g.current == None || g.opponent == Some(Other(g.current.value)) ==> SwitchPlayer(SwitchPlayer(g)) == g
    ensures SwitchPlayer(SwitchPlayer(SwitchPlayer(g))) == SwitchPlayer(g)
  {
  }

  // ---------------------------------------------------------------------
  // The end-of-turn decision after a rotation
  // ---------------------------------------------------------------------

  datatype Decision = Finish(state: GameState) | Continue

  /** The decision table that follows the rotation. */
  function Decide(moverWins: bool, opponentWins: bool, full: bool, mover: Marble): (d: Decision)
    ensures d == Finish(Draw) <==> (moverWins && opponentWins) || (!moverWins && !opponentWins && full)
    ensures d == Finish(Won(mover)) <==> moverWins && !opponentWins
    ensures d == Finish(Won(Other(mover))) <==> opponentWins && !moverWins
    ensures d == Continue <==> !moverWins && !opponentWins && !full
  {
    if moverWins then
      if opponentWins then Finish(Draw) else Finish(Won(mover))
    else if opponentWins then Finish(Won(Other(mover)))
    else if full then Finish(Draw)
    else Continue
  }

  /** The table favours no one: it depends on which colours have five, not
      on which of them moved. */
  lemma DecideIgnoresWhoMoved(moverWins: bool, opponentWins: bool, full: bool, mover: Marble)
    ensures Decide(moverWins, opponentWins, full, mover) == Decide(opponentWins, moverWins, full, Other(mover))
  {
  }

  /** The rest of a move after the rotation: both colours are checked, the
      opponent field is set, and the game either ends or passes the turn. */
  function FinishTurn(scan: Scan, g: Game, mover: Marble): (g': Game)
    requires g.current == Some(mover)
    ensures g'.board == g.board
    ensures Wins(scan, g.board, mover) && Wins(scan, g.board, Other(mover)) ==> g'.state == Draw
    ensures Wins(scan, g.board, mover) && !Wins(scan, g.board, Other(mover)) ==> g'.state == Won(mover)
    ensures !Wins(scan, g.board, mover) && Wins(scan, g.board, Other(mover)) ==> g'.state == Won(Other(mover))
    ensures !Wins(scan, g.board, mover) && !Wins(scan, g.board, Other(mover)) && IsFull(g.board) ==> g'.state == Draw
    ensures !Wins(scan, g.board, mover) && !Wins(scan, g.board, Other(mover)) && !IsFull(g.board) ==>
      g'.state == g.state && g'.current == Some(Other(mover)) && g'.opponent == Some(mover)
    ensures g'.state != g.state ==> g'.current == Some(mover) && g'.opponent == Some(Other(mover))
  {
    var moverWins := Wins(scan, g.board, mover);
    var g1 := g.(opponent := Some(Other(mover)));
    var opponentWins := Wins(scan, g.board, Other(mover));
    match Decide(moverWins, opponentWins, IsFull(g.board), mover)
    case Finish(s) => g1.(state := s)
    case Continue => SwitchPlayer(g1)
  }

  // ---------------------------------------------------------------------
  // make_move
  // ---------------------------------------------------------------------

  /** Where make_move stands after placing the marble, or how it stopped before. */
  datatype Start = Stopped(game: Game, outcome: Outcome) | Placed(game: Game, mover: Marble, at: Position)

  /** The first part of make_move: decode the position, convert the colour,
      record the mover as current player, validate, place the marble. */
  function PlaceMarble(g: Game, color: string, position: string): (st: Start)
    ensures ConvertPosition(position).Fail? ==> st == Stopped(g, Raised(ConvertPosition(position).error))
    ensures ConvertPosition(position).Ok? ==> st.game.current == Some(ColorOf(color))
    ensures st.game.opponent == g.opponent && st.game.state == g.state
    ensures st.Stopped? ==> st.game.board == g.board && st.outcome != Accepted
    ensures st.Stopped? && ConvertPosition(position).Ok? ==>
      st.outcome == IsValidMove(g.(current := Some(ColorOf(color))), ConvertPosition(position).value, Some(ColorOf(color)))
    ensures st.Placed? <==>
      ConvertPosition(position).Ok? && g.state == Unfinished && Some(ColorOf(color)) != g.opponent &&
      OnBoard(ConvertPosition(position).value) &&
      g.board[ConvertPosition(position).value.row][ConvertPosition(position).value.col] == Empty
    ensures st.Placed? ==>
      && st.mover == ColorOf(color) && st.at == ConvertPosition(position).value
      && OnBoard(st.at) && g.board[st.at.row][st.at.col] == Empty
      && st.game.board == Place(g.board, st.mover, st.at)
  {
    match ConvertPosition(position)
    case Fail(e) => Stopped(g, Raised(e))
    case Ok(p) =>
      var m := ColorOf(color);
      var g1 := g.(current := Some(m));
      var verdict := IsValidMove(g1, p, g1.current);
      if verdict != Accepted then Stopped(g1, verdict)
      else Placed(g1.(board := Place(g1.board, m, p)), m, p)
  }

  /** make_move as written. check_end_conditions returns a bool, which is
      never equal to "UNFINISHED", so every accepted move stores that bool
      as the game state and returns True right after the placement: the
      rotation and everything after it is never reached. The sub-board id
      and rotation token are therefore never read. */
  function MakeMove(g: Game, color: string, position: string, subBoard: int, rotation: string): (res: (Game, Outcome))
    ensures res.1 == Accepted <==> PlaceMarble(g, color, position).Placed?
    ensures PlaceMarble(g, color, position).Stopped? ==>
      res == (PlaceMarble(g, color, position).game, PlaceMarble(g, color, position).outcome)
    ensures res.1 == Accepted ==>
      var p := ConvertPosition(position).value;
      g.state == Unfinished && res.0.board == Place(g.board, ColorOf(color), p) &&
      res.0.state == Flag(HasFive(res.0.board, ColorOf(color)))
    ensures res.1 != Accepted ==> res.0.board == g.board && res.0.state == g.state
    ensures res.0.opponent == g.opponent
    ensures ConvertPosition(position).Ok? ==> res.0.current == Some(ColorOf(color))
  {
    match PlaceMarble(g, color, position)
    case Stopped(g1, outcome) => (g1, outcome)
    case Placed(g1, m, p) =>
      var state := Flag(CheckEndConditions(g1.board, m));
      if state != Unfinished then (g1.(state := state), Accepted)
      else assert false; (g1, Accepted)
  }

  /** After an accepted move the game is finished: no state but UNFINISHED
      lets a move through, and the bool flag is not UNFINISHED. */
  lemma AcceptedMoveEndsGame(g: Game, color: string, position: string, subBoard: int, rotation: string)
    requires MakeMove(g, color, position, subBoard, rotation).1 == Accepted
    ensures MakeMove(g, color, position, subBoard, rotation).0.state.Flag?
    ensures forall color', position', subBoard', rotation' ::
      MakeMove(MakeMove(g, color, position, subBoard, rotation).0, color', position', subBoard', rotation').1 != Accepted
  {
  }

  /** Once the state is not UNFINISHED every call is refused with "game is
      finished", unless decoding the position raises first; the board and
      the state stay as they are. */
  lemma FinishedGameRefusesMoves(g: Game, color: string, position: string, subBoard: int, rotation: string)
    requires g.state != Unfinished
    ensures var res := MakeMove(g, color, position, subBoard, rotation);
      res.0.board == g.board && res.0.state == g.state &&
      (if ConvertPosition(position).Ok? then res.1 == Rejected(GameFinished) else res.1.Raised?)
  {
  }

  /** The turn check compares against the opponent field, which make_move
      never sets; with no opponent recorded it never refuses a move. */
  lemma TurnCheckNeverRefuses(g: Game, color: string, position: string, subBoard: int, rotation: string)
    requires g.opponent == None
    ensures MakeMove(g, color, position, subBoard, rotation).1 != Rejected(NotThisPlayersTurn)
    ensures MakeMove(g, color, position, subBoard, rotation).0.opponent == None
  {
  }

  /** One call of make_move. */
  datatype Call = Call(color: string, position: string, subBoard: int, rotation: string)

  /** A sequence of calls on one engine, with the outcome of each. */
  function Play(g: Game, calls: seq<Call>): (res: (Game, seq<Outcome>))
    ensures |res.1| == |calls|
    decreases |calls|
  {
    if |calls| == 0 then (g, [])
    else
      var step := MakeMove(g, calls[0].color, calls[0].position, calls[0].subBoard, calls[0].rotation);
      var rest := Play(step.0, calls[1..]);
      (rest.0, [step.1] + rest.1)
  }

  function CountAccepted(outcomes: seq<Outcome>): nat
  {
    if |outcomes| == 0 then 0
    else (if outcomes[0] == Accepted then 1 else 0) + CountAccepted(outcomes[1..])
  }

  /** From a finished game no call is accepted and nothing on the board changes. */
  lemma {:induction false} FinishedGameStaysFinished(g: Game, calls: seq<Call>)
    requires g.state != Unfinished
    ensures CountAccepted(Play(g, calls).1) == 0
    ensures Play(g, calls).0.board == g.board && Play(g, calls).0.state == g.state
    decreases |calls|
  {
    if |calls| > 0 {
      var step := MakeMove(g, calls[0].color, calls[0].position, calls[0].subBoard, calls[0].rotation);
      FinishedGameRefusesMoves(g, calls[0].color, calls[0].position, calls[0].subBoard, calls[0].rotation);
      FinishedGameStaysFinished(step.0, calls[1..]);
    }
  }

  /** However many calls are made, at most one move is ever accepted. */
  lemma {:induction false} AtMostOneMoveAccepted(g: Game, calls: seq<Call>)
    ensures CountAccepted(Play(g, calls).1) <= 1
    decreases |calls|
  {
    if |calls| > 0 {
      var step := MakeMove(g, calls[0].color, calls[0].position, calls[0].subBoard, calls[0].rotation);
      if step.1 == Accepted {
        AcceptedMoveEndsGame(g, calls[0].color, calls[0].position, calls[0].subBoard, calls[0].rotation);
        FinishedGameStaysFinished(step.0, calls[1..]);
      } else {
        AtMostOneMoveAccepted(step.0, calls[1..]);
      }
    }
  }

  /** On a new game, White's first move on a0 is accepted and the state
      becomes a bool; Black's reply on a1 is then refused as finished. */
  lemma FirstMoveEndsGame()
    ensures var first := MakeMove(NewGame(), "white", "a0", 1, "C");
      first.1 == Accepted && first.0.state.Flag? &&
      MakeMove(first.0, "black", "a1", 1, "C").1 == Rejected(GameFinished)
  {
    assert ConvertPosition("a0") == Ok(Position(0, 0));
    assert ConvertPosition("a1") == Ok(Position(0, 1));
    assert PlaceMarble(NewGame(), "white", "a0").Placed?;
    var first := MakeMove(NewGame(), "white", "a0", 1, "C");
    AcceptedMoveEndsGame(NewGame(), "white", "a0", 1, "C");
    FinishedGameRefusesMoves(first.0, "black", "a1", 1, "C");
  }
}

=== FILE: sub_board.dfy ===
/** A SubBoard is a 3x3 window into the shared 6x6 board at one of four
    anchors. Reading copies the window out of the board; rotating reads it,
    permutes it by a quarter turn and writes it back into the same cells. */
module SubBoard {
  import opened Grid
  import opened Exceptions

  /** The four quadrants, numbered 1 to 4 in the source. */
  datatype Quadrant = TopLeft | TopRight | BottomLeft | BottomRight

  /** 'C' (clockwise) and 'A' (anticlockwise) in the source. */
  datatype Direction = Clockwise | Anticlockwise

  function AnchorRow(q: Quadrant): int
  {
    if q == TopLeft || q == TopRight then 0 else 3
  }

  function AnchorCol(q: Quadrant): int
  {
    if q == TopLeft || q == BottomLeft then 0 else 3
  }

  /** Whether board cell (r, c) lies in q's window. */
  predicate InQuadrant(q: Quadrant, r: int, c: int)
  {
    AnchorRow(q) <= r < AnchorRow(q) + 3 && AnchorCol(q) <= c < AnchorCol(q) + 3
  }

  /** The window at q's anchor, read from the board at call time. */
  function GetSubBoard(b: Board, q: Quadrant): Window
  {
    var r, c := AnchorRow(q), AnchorCol(q);
    [[b[r][c], b[r][c + 1], b[r][c + 2]],
     [b[r + 1][c], b[r + 1][c + 1], b[r + 1][c + 2]],
     [b[r + 2][c], b[r + 2][c + 1], b[r + 2][c + 2]]]
  }

  /** Window cell (i, j) is the board cell at offset (i, j) from the
      quadrant's anchor, as the nested read loop collects it. */
  lemma GetSubBoardCell(b: Board, q: Quadrant, i: int, j: int)
    requires 0 <= i < 3 && 0 <= j < 3
    ensures GetSubBoard(b, q)[i][j] == b[AnchorRow(q) + i][AnchorCol(q) + j]
  {
  }

  /** The write-back loop: copies w into q's window of b. */
  function PutSubBoard(b: Board, q: Quadrant, w: Window): Board
  {
    seq(6, r requires 0 <= r < 6 => seq(6, c requires 0 <= c < 6 =>
      if InQuadrant(q, r, c) then w[r - AnchorRow(q)][c - AnchorCol(q)] else b[r][c]))
  }

  /** Reading a window just written gives back what was written. */
  lemma GetAfterPut(b: Board, q: Quadrant, w: Window)
    ensures GetSubBoard(PutSubBoard(b, q, w), q) == w
  {
    WindowExt(GetSubBoard(PutSubBoard(b, q, w), q), w);
  }

  /** Writing back the window just read leaves the board as it was. */
  lemma PutWhatWasRead(b: Board, q: Quadrant)
    ensures PutSubBoard(b, q, GetSubBoard(b, q)) == b
  {
    BoardExt(PutSubBoard(b, q, GetSubBoard(b, q)), b);
  }

  /** The write-back loop puts window cell (i, j) at offset (i, j) from
      the quadrant's anchor. */
  lemma PutSubBoardCell(b: Board, q: Quadrant, w: Window, i: int, j: int)
    requires 0 <= i < 3 && 0 <= j < 3
    ensures PutSubBoard(b, q, w)[AnchorRow(q) + i][AnchorCol(q) + j] == w[i][j]
  {
  }

  /** Writing a window touches only that window's nine cells. */
  lemma PutIsLocal(b: Board, q: Quadrant, w: Window)
    ensures forall r, c :: 0 <= r < 6 && 0 <= c < 6 && !InQuadrant(q, r, c) ==>
      PutSubBoard(b, q, w)[r][c] == b[r][c]
  {
  }

  /** The quarter turn, as the explicit 3x3 table the source builds. */
  function RotateWindow(w: Window, d: Direction): (w': Window)
    ensures forall r, c :: 0 <= r < 3 && 0 <= c < 3 ==>
      w'[r][c] == (if d == Clockwise then w[2 - c][r] else w[c][2 - r])
    ensures w'[1][1] == w[1][1]
  {
    match d
    case Clockwise =>
      [[w[2][0], w[1][0], w[0][0]],
       [w[2][1], w[1][1], w[0][1]],
       [w[2][2], w[1][2], w[0][2]]]
    case Anticlockwise =>
      [[w[0][2], w[1][2], w[2][2]],
       [w[0][1], w[1][1], w[2][1]],
       [w[0][0], w[1][0], w[2][0]]]
  }

  function Reverse(d: Direction): Direction
  {
    if d == Clockwise then Anticlockwise else Clockwise
  }

  /** The window's nine values, ignoring where they sit. */
  function Contents(w: Window): multiset<Cell>
  {
    multiset{w[0][0]} + multiset{w[0][1]} + multiset{w[0][2]} +
    multiset{w[1][0]} + multiset{w[1][1]} + multiset{w[1][2]} +
    multiset{w[2][0]} + multiset{w[2][1]} + multiset{w[2][2]}
  }

  /** Turning one way and then the other restores the window. */
  lemma RotateWindowUndo(w: Window, d: Direction)
    ensures RotateWindow(RotateWindow(w, d), Reverse(d)) == w
  {
    WindowExt(RotateWindow(RotateWindow(w, d), Reverse(d)), w);
  }

  /** Four quarter turns in the same direction restore the window. */
  lemma RotateWindowFourTimes(w: Window, d: Direction)
    ensures RotateWindow(RotateWindow(RotateWindow(RotateWindow(w, d), d), d), d) == w
  {
    var w4 := RotateWindow(RotateWindow(RotateWindow(RotateWindow(w, d), d), d), d);
    WindowExt(w4, w);
  }

  /** A quarter turn only moves the nine values: none is created or lost. */
  lemma RotateWindowPermutes(w: Window, d: Direction)
    ensures Contents(RotateWindow(w, d)) == Contents(w)
  {
    var w' := RotateWindow(w, d);
    forall x
      ensures Contents(w')[x] == Contents(w)[x]
    {
    }
  }

  /** The board cell whose value a quarter turn of q in direction d moves
      onto (r, c): (r, c) itself outside the window. */
  function TurnFrom(q: Quadrant, d: Direction, r: int, c: int): (s: (int, int))
    requires 0 <= r < 6 && 0 <= c < 6
    ensures 0 <= s.0 < 6 && 0 <= s.1 < 6
    ensures InQuadrant(q, r, c) <==> InQuadrant(q, s.0, s.1)
  {
    if !InQuadrant(q, r, c) then (r, c)
    else
      var i, j := r - AnchorRow(q), c - AnchorCol(q);
      if d == Clockwise then (AnchorRow(q) + 2 - j, AnchorCol(q) + i)
      else (AnchorRow(q) + j, AnchorCol(q) + 2 - i)
  }

  /** SubBoard.rotate with a well-formed direction: the window at q is
      replaced by its quarter turn and nothing else on the board moves. */
  function Turn(b: Board, q: Quadrant, d: Direction): (b': Board)
    ensures forall r, c :: 0 <= r < 6 && 0 <= c < 6 ==>
      b'[r][c] == b[TurnFrom(q, d, r, c).0][TurnFrom(q, d, r, c).1]
  {
    TurnMovesCells(b, q, d);
    PutSubBoard(b, q, RotateWindow(GetSubBoard(b, q), d))
  }

  lemma TurnMovesCells(b: Board, q: Quadrant, d: Direction)
    ensures forall r, c :: 0 <= r < 6 && 0 <= c < 6 ==>
      PutSubBoard(b, q, RotateWindow(GetSubBoard(b, q), d))[r][c] == b[TurnFrom(q, d, r, c).0][TurnFrom(q, d, r, c).1]
  {
    forall r, c | 0 <= r < 6 && 0 <= c < 6
      ensures PutSubBoard(b, q, RotateWindow(GetSubBoard(b, q), d))[r][c] == b[TurnFrom(q, d, r, c).0][TurnFrom(q, d, r, c).1]
    {
      TurnMovesCell(b, q, d, r, c);
    }
  }

  lemma TurnMovesCell(b: Board, q: Quadrant, d: Direction, r: int, c: int)
    requires 0 <= r < 6 && 0 <= c < 6
    ensures PutSubBoard(b, q, RotateWindow(GetSubBoard(b, q), d))[r][c] == b[TurnFrom(q, d, r, c).0][TurnFrom(q, d, r, c).1]
  {
    var w := GetSubBoard(b, q);
    var w' := RotateWindow(w, d);
    if InQuadrant(q, r, c) {
      var i, j := r - AnchorRow(q), c - AnchorCol(q);
      assert PutSubBoard(b, q, w')[r][c] == w'[i][j];
      if d == Clockwise {
        assert TurnFrom(q, d, r, c) == (AnchorRow(q) + 2 - j, AnchorCol(q) + i);
        assert w'[i][j] == w[2 - j][i];
        GetSubBoardCell(b, q, 2 - j, i);
      } else {
        assert TurnFrom(q, d, r, c) == (AnchorRow(q) + j, AnchorCol(q) + 2 - i);
        assert w'[i][j] == w[j][2 - i];
        GetSubBoardCell(b, q, j, 2 - i);
      }
    } else {
      assert TurnFrom(q, d, r, c) == (r, c);
      assert PutSubBoard(b, q, w')[r][c] == b[r][c];
    }
  }

  /** The direction token the source compares against: "C" or "A". */
  function ParseDirection(rotation: string): (d: Option<Direction>)
    ensures d == Some(Clockwise) <==> rotation == "C"
    ensures d == Some(Anticlockwise) <==> rotation == "A"
  {
    if rotation == "C" then Some(Clockwise)
    else if rotation == "A" then Some(Anticlockwise)
    else None
  }

  /** SubBoard.rotate: any token other than "C" or "A" leaves the rotated
      grid unbound, so the write-back raises before touching the board. */
  function Rotate(b: Board, q: Quadrant, rotation: string): (r: Result<Board>)
    ensures r.Fail? <==> rotation != "C" && rotation != "A"
    ensures r.Fail? ==> r.error == UnboundLocalError
    ensures rotation == "C" ==> r == Ok(Turn(b, q, Clockwise))
    ensures rotation == "A" ==> r == Ok(Turn(b, q, Anticlockwise))
  {
    match ParseDirection(rotation)
    case None => Fail(UnboundLocalError)
    case Some(d) => Ok(Turn(b, q, d))
  }

  /** A quarter turn rewrites only the nine cells of its own window. */
  lemma TurnIsLocal(b: Board, q: Quadrant, d: Direction)
    ensures forall r, c :: 0 <= r < 6 && 0 <= c < 6 && !InQuadrant(q, r, c) ==> Turn(b, q, d)[r][c] == b[r][c]
  {
  }

  /** The window of a turned quadrant is the turned window. */
  lemma TurnedWindow(b: Board, q: Quadrant, d: Direction)
    ensures GetSubBoard(Turn(b, q, d), q) == RotateWindow(GetSubBoard(b, q), d)
  {
    GetAfterPut(b, q, RotateWindow(GetSubBoard(b, q), d));
  }

  /** Writing a window twice keeps only the second write. */
  lemma PutTwice(b: Board, q: Quadrant, w1: Window, w2: Window)
    ensures PutSubBoard(PutSubBoard(b, q, w1), q, w2) == PutSubBoard(b, q, w2)
  {
    BoardExt(PutSubBoard(PutSubBoard(b, q, w1), q, w2), PutSubBoard(b, q, w2));
  }

  /** Turning q after writing w into it writes w's quarter turn over the
      original board. */
  lemma TurnAfterPut(b: Board, q: Quadrant, w: Window, d: Direction)
    ensures Turn(PutSubBoard(b, q, w), q, d) == PutSubBoard(b, q, RotateWindow(w, d))
  {
    GetAfterPut(b, q, w);
    PutTwice(b, q, w, RotateWindow(w, d));
  }

  /** Turning a quadrant one way and then back restores the whole board. */
  lemma TurnUndo(b: Board, q: Quadrant, d: Direction)
    ensures Turn(Turn(b, q, d), q, Reverse(d)) == b
  {
    var w := GetSubBoard(b, q);
    TurnAfterPut(b, q, RotateWindow(w, d), Reverse(d));
    RotateWindowUndo(w, d);
    PutWhatWasRead(b, q);
  }

  /** Four quarter turns of the same quadrant restore the whole board. */
  lemma TurnFourTimes(b: Board, q: Quadrant, d: Direction)
    ensures Turn(Turn(Turn(Turn(b, q, d), q, d), q, d), q, d) == b
  {
    var w := GetSubBoard(b, q);
    var w1 := RotateWindow(w, d);
    var w2 := RotateWindow(w1, d);
    var w3 := RotateWindow(w2, d);
    TurnAfterPut(b, q, w1, d);
    TurnAfterPut(b, q, w2, d);
    TurnAfterPut(b, q, w3, d);
    RotateWindowFourTimes(w, d);
    PutWhatWasRead(b, q);
  }
}
